=== FILE: README.md ===
# dama redaction core in Dafny

dama is an iOS app that covers parts of a photo with a mosaic. The user
picks up to five images, marks rectangles by dragging over an image or lets
text detection propose them, and the app replaces each marked rectangle with
a grid of 20-pixel blocks, each filled with the block's average colour.

This project models the core of that app and proves properties of it:

- **The region store** of `MosaicProcessor`. `Regions.MosaicProcessor` is a
  class whose `mosaicRegions` sequence is changed in place by
  `AddMosaicRegion`, `ToggleRegion`, `RemoveRegion` and `ClearAllRegions`.
- **The pixelation engine.** `applyMosaic`, `applyMosaicToRegion` and
  `getAverageColor` become methods that work in place on an `array<byte>`
  RGBA buffer. Each one is proved equal to a function on the buffer's value:
  `MosaicOutput`, `MosaicRegion` and `Mean`. The laws about those functions
  are in `MosaicLaws`. They cover the mean colour a block receives, pixels
  outside every region, images of one colour, inactive regions, and the
  order in which regions are applied. `Tiling` proves that the stride loops'
  blocks partition a region's pixel bounds. It also proves that each image
  pixel of the bounds ends with the floor mean of its own block of the
  image as it stood before the region was processed.
- **The coordinate mapping.** A region's normalized rectangle is flipped
  vertically, scaled to the image and truncated to integer pixel bounds.
  This is in `Geometry`, with Swift's `Int(_:)` modelled as truncation
  toward zero.
- **Text detection.** The recogniser's outcome is a parameter. The model
  states how bounding boxes become rectangles, and that every failure path
  yields no rectangles.
- **The drag overlay of the editor.** `SelectionOverlay` is a small state
  machine: a latched start point, the selection rectangle, and the 2%
  size guard.
- **The editor screen.** `ImageEditor` keeps its preview equal to the
  engine's output for the current region list.
- **The gallery screen's removal bookkeeping.** `GalleryScreen.RemoveImage`
  removes the image and its picker item, re-keys the index-keyed map of
  processed results, and clamps the selected index. `ClearAllMosaics` is
  also here.

The pixel buffer holds `width * height` pixels of four bytes, with
`bytesPerRow = width * 4`. Rows are addressed by their CoreGraphics y
coordinate, which grows upward. The same convention is used for every read
and every write.

Modules, one per file:

| module | file |
|---|---|
| `Wrappers` | `wrappers.dfy` |
| `Geometry` | `geometry.dfy` |
| `Raster` | `raster.dfy` |
| `Regions` | `regions.dfy` |
| `Pixelation` | `pixelation.dfy` |
| `MosaicLaws` | `mosaic_laws.dfy` |
| `Tiling` | `tiling.dfy` |
| `Detection` | `detection.dfy` |
| `Selection` | `selection.dfy` |
| `Editor` | `editor.dfy` |
| `Gallery` | `gallery.dfy` |

## Model

| member | source | states |
|---|---|---|
| Regions.Intensity.BlockSize | dama/MosaicProcessor.swift:17-18 | The one intensity, `high`, has a block edge of 20 pixels. |
| Regions.SameRegion | dama/MosaicProcessor.swift:31-35 | The hand-written `==` holds exactly when the two regions are equal: same rect, same intensity and same `isActive`. |
| Regions.Toggled | dama/MosaicProcessor.swift:163-166 | Toggling keeps the length and every other element. At an index in range, only `isActive` of that element is flipped. |
| Regions.Removed | dama/MosaicProcessor.swift:169-172 | Removing an index in range shortens the list by one and moves the later elements down one place, keeping their order. An index past the end leaves the list as it was. The gallery uses it for its image and picker-item lists. |
| Regions.ToggleTwiceRestores | dama/MosaicProcessor.swift:163-166 | Toggling the same index twice restores the list. |
| Regions.RemoveTwiceCommutes | dama/MosaicProcessor.swift:169-172 | For i < j, removing j and then i gives the same list as removing i and then j - 1. |
| Regions.MosaicProcessor.constructor | dama/MosaicProcessor.swift:38-39 | A new processor has no regions and the `high` intensity. |
| Regions.MosaicProcessor.AddMosaicRegion | dama/MosaicProcessor.swift:152-155 | Appends exactly one active region with the given rect and intensity. Earlier regions are unchanged. |
| Regions.MosaicProcessor.ClearAllRegions | dama/MosaicProcessor.swift:158-160 | The list becomes empty. |
| Regions.MosaicProcessor.ToggleRegion | dama/MosaicProcessor.swift:163-166 | The new list is `Toggled` of the old one. An index past the end is a no-op. |
| Regions.MosaicProcessor.RemoveRegion | dama/MosaicProcessor.swift:169-172 | The new list is `Removed` of the old one. An index past the end is a no-op. |
| Geometry.Trunc | dama/MosaicProcessor.swift:86-89 | `Int(_:)` truncates toward zero. It is the floor for non-negative values and the ceiling for negative values. |
| Geometry.FlipVertical | dama/MosaicProcessor.swift:190-195 | The detector's flip keeps x, width and height. It moves the box's top edge to 1 minus its old bottom edge. |
| Geometry.FlipVerticalInvolutive | dama/MosaicProcessor.swift:190-195 | Flipping twice gives the original rectangle. |
| Geometry.FlipVerticalKeepsUnitSquare | dama/MosaicProcessor.swift:190-195 | A rectangle lies inside the unit square exactly when its flip does. |
| Geometry.FlippedRect | dama/MosaicProcessor.swift:79-84 | The scaled rectangle's right edge is `(x + w) * W`. Its bottom edge is `(1 - y - h) * H` and its top edge is `(1 - y) * H`, in CoreGraphics orientation. |
| Geometry.TruncMonotone | dama/MosaicProcessor.swift:86-89 | `Int(_:)` never reverses the order of two values. |
| Geometry.PixelBounds | dama/MosaicProcessor.swift:86-89 | A rectangle of non-negative width gives `startX <= endX`, and one of non-negative height gives `startY <= endY`. Its exact values for rectangles in the unit square are stated by `Geometry.PixelBoundsInImage`. |
| Geometry.Scale | dama/MosaicProcessor.swift:79-84 | Scaling a normalized rectangle inside the unit square to a W×H image gives a rectangle inside `[0, W] × [0, H]`. |
| Geometry.FlippedRectIsScaledFlip | dama/MosaicProcessor.swift:79-84 | The engine's `flippedRect` is the detector's flip followed by scaling to the image size. |
| Geometry.FlippedRectInImage | dama/MosaicProcessor.swift:79-84 | For a rectangle inside the unit square, the flipped and scaled rectangle lies inside the image. It spans from `(1 - y - h) * H` to `(1 - y) * H`. |
| Geometry.PixelBoundsInImage | dama/MosaicProcessor.swift:79-89 | For a rectangle inside the unit square, the pixel bounds are `floor(x*W)`, `floor((1-y-h)*H)`, `floor((x+w)*W)` and `floor((1-y)*H)`, and they lie inside the image. |
| Raster.Window | dama/MosaicProcessor.swift:120-123 | The clamped window lies inside the image. It holds exactly the block's pixels that lie in the image. |
| Raster.WindowSumBounds | dama/MosaicProcessor.swift:125-139 | A channel's sum over a window is between 0 and 255 times the pixel count. |
| Raster.ChannelMean | dama/MosaicProcessor.swift:141-146 | The channel value is the floor of the sum divided by the pixel count. It is bracketed by the sum over the count. |
| Raster.Mean | dama/MosaicProcessor.swift:111-149 | The average colour is absent exactly when the clamped window holds no pixel. |
| Raster.Filled | dama/MosaicProcessor.swift:103-104 | A fill keeps the buffer's shape. What it does to each pixel is stated by `Raster.FilledAt`. |
| Raster.FilledAt | dama/MosaicProcessor.swift:103-104 | After a fill, every image pixel inside the box has the fill colour and every other pixel keeps its value. |
| Raster.FilledUnion | dama/MosaicProcessor.swift:103-104 | Filling two boxes one after the other with one colour equals filling their union. |
| Pixelation.BlockAt | dama/MosaicProcessor.swift:92-99 | A block starts at its grid corner and never reaches past the end of the bounds. For a corner before the end, it is non-empty and at most `blockSize` wide and high. It is a full block unless it is cut off by the end of the bounds. |
| Pixelation.MosaicBlock | dama/MosaicProcessor.swift:101-105 | Processing one block keeps the buffer's shape. What it does to each pixel is stated by `MosaicLaws.MosaicBlockAt`. |
| Pixelation.MosaicRow | dama/MosaicProcessor.swift:93-106 | One row of blocks keeps the buffer's shape. What it does to each pixel is stated by `Tiling.MosaicRowAt`, `Tiling.MosaicRowFrame` and `MosaicLaws.MosaicRowOutside`. |
| Pixelation.MosaicRows | dama/MosaicProcessor.swift:92-106 | All rows of blocks keep the buffer's shape. What they do to each pixel is stated by `Tiling.MosaicRowsAt`, `Tiling.MosaicRowsFrame` and `MosaicLaws.MosaicRowsOutside`. |
| Pixelation.MosaicRegion | dama/MosaicProcessor.swift:74-108 | Tiling a region's pixel bounds keeps the buffer's shape. What it does to each pixel is stated by `Tiling.MosaicRegionAt` and `MosaicLaws.MosaicRegionsOutside`. |
| Pixelation.MosaicRegions | dama/MosaicProcessor.swift:64-66 | Applying the active regions in order keeps the buffer's shape. What it does to each pixel is stated by the `MosaicLaws` lemmas. |
| Pixelation.MosaicOutput | dama/MosaicProcessor.swift:42-71 | The result is absent exactly when there is no bitmap or no context can be made for it (zero width or height). Otherwise it is a valid image of the same size. |
| Pixelation.GetAverageColor | dama/MosaicProcessor.swift:111-149 | The nested summing loops return exactly `Mean` of the buffer over the clamped block. |
| Pixelation.SumWindow | dama/MosaicProcessor.swift:125-139 | The row loop accumulates each channel's window sum. The pixel count is the window's area. |
| Pixelation.SumRow | dama/MosaicProcessor.swift:129-138 | The column loop accumulates each channel's sum over the row. |
| Pixelation.MeanOfSums | dama/MosaicProcessor.swift:141-146 | Dividing the sums by a positive count gives channels between 0 and 255, and that colour is `Mean`. |
| Pixelation.FillBlock | dama/MosaicProcessor.swift:103-104 | Filling in place leaves the buffer equal to `Filled` of the old buffer. |
| Pixelation.MosaicBlockRow | dama/MosaicProcessor.swift:93-106 | The inner block loop leaves the buffer equal to `MosaicRow` of the old buffer. |
| Pixelation.ApplyMosaicToRegion | dama/MosaicProcessor.swift:74-108 | The nested stride loops leave the buffer equal to `MosaicRegion` of the old buffer. |
| Pixelation.ApplyMosaic | dama/MosaicProcessor.swift:42-71 | Copying the image and processing the active regions in place gives exactly `MosaicOutput`. |
| Pixelation.AverageColorAsWritten | dama/MosaicProcessor.swift:120-139 | As written, the call traps exactly when the clamped row range is inverted, or the row range is non-empty and the clamped column range is inverted. The column range is built only inside the row loop. Any value it returns is `Mean`. |
| Pixelation.OverhangingRegionTraps | dama/MosaicProcessor.swift:92-99 | A region reaching past the right edge of a 100×100 image reaches a block whose column range is 110..<100, and that block traps. |
| Pixelation.InSquareRegionsNeverTrap | dama/MosaicProcessor.swift:86-99 | For regions inside the unit square, no block traps, and the code as written agrees with the corrected `GetAverageColor`. |
| MosaicLaws.MosaicBlockAt | dama/MosaicProcessor.swift:101-105 | After a block is processed, each of its in-image pixels holds the floor mean of each channel over the clamped block. Every other pixel is unchanged. |
| Tiling.Tile | dama/MosaicProcessor.swift:92-99 | The block at a pixel's grid cell, `startX + ((px - startX) / blockSize) * blockSize` and likewise for y, holds that pixel. |
| Tiling.GridCell | dama/MosaicProcessor.swift:92-93 | A coordinate lies in the k-th stride of a grid exactly when k is its floor offset divided by the block size. |
| Tiling.TilingPartition | dama/MosaicProcessor.swift:92-99 | A pixel of the bounds lies in the block at grid position (k, m) exactly when (k, m) is its own cell. So the blocks the loops visit cover the bounds and do not overlap. |
| Tiling.BlockInBounds | dama/MosaicProcessor.swift:92-99 | Every pixel of a block the loops visit lies inside the region's pixel bounds. |
| Tiling.MosaicRowAt | dama/MosaicProcessor.swift:93-106 | Along one row of blocks, a pixel of the block at grid column k ends with that block's mean over the buffer the row started from. The earlier blocks of the row do not touch it and the later ones do not reach it. |
| Tiling.MosaicRowsAt | dama/MosaicProcessor.swift:92-106 | Over all rows, a pixel of the block at grid position (k, m) ends with that block's mean over the buffer the loops started from. |
| Tiling.MosaicRegionAt | dama/MosaicProcessor.swift:74-108 | Every image pixel inside a region's pixel bounds ends, on each channel, with the floor mean of its own grid block (clamped to the image, and never empty) over the image as it was before the region was processed. |
| MosaicLaws.ChannelMeanUniform | dama/MosaicProcessor.swift:141-146 | The floor mean of a window of one colour is that colour. |
| MosaicLaws.MosaicBlockUniform | dama/MosaicProcessor.swift:101-105 | A block of one colour is left unchanged. |
| MosaicLaws.MosaicRegionsUniform | dama/MosaicProcessor.swift:64-66 | An image of one colour comes out of the engine unchanged, whatever the regions. |
| MosaicLaws.MosaicRegionsOutside | dama/MosaicProcessor.swift:64-66 | A pixel outside the pixel bounds of every active region keeps its value. |
| MosaicLaws.MosaicRegionsAppend | dama/MosaicProcessor.swift:64-66 | Regions are applied one after the other. The result for `a + b` is `b` applied to the result for `a`. |
| MosaicLaws.MosaicRegionsInactive | dama/MosaicProcessor.swift:64-66 | When no region is active, the buffer comes out byte for byte unchanged. |
| Detection.FlipAll | dama/MosaicProcessor.swift:187-196 | The output has one flipped rectangle per observation, in observation order. |
| Detection.DetectText | dama/MosaicProcessor.swift:175-219 | The result is empty when there is no bitmap, the results are not text observations, or the handler fails. Otherwise it has one rectangle per box, and flipping each rectangle gives its box back. |
| Detection.DetectSensitiveInfo | dama/MosaicProcessor.swift:222-228 | The text rectangles are handed on unfiltered. |
| Detection.FlipAllInvolutive | dama/MosaicProcessor.swift:187-196 | Converting the boxes twice gives them back. |
| Detection.DetectedInUnitSquare | dama/MosaicProcessor.swift:187-196 | Boxes inside the unit square give rectangles inside the unit square. |
| Selection.SelectionRect | dama/ImageEditorView.swift:212-217 | The rectangle's size is non-negative, and its edges are the two points' minimum and maximum coordinates divided by the view size. |
| Selection.SelectionSymmetric | dama/ImageEditorView.swift:212-217 | The rectangle is the same whichever corner the drag started from. |
| Selection.SelectionInUnitSquare | dama/ImageEditorView.swift:212-217 | Two points inside the view give a rectangle inside the unit square. |
| Selection.AcceptsSelection | dama/ImageEditorView.swift:224 | Only a selection with positive width and height can pass the guard. So a tap never adds a region. The exact threshold is stated by `Selection.AcceptsSelectionIff`. |
| Selection.AcceptsSelectionIff | dama/ImageEditorView.swift:224 | The size guard passes exactly when the drag moved more than 2% of the view's width and more than 2% of its height. |
| Selection.SelectionOverlay.constructor | dama/ImageEditorView.swift:16-18 | The overlay starts with no selection, not selecting, and a start point at the origin. |
| Selection.SelectionOverlay.OnChanged | dama/ImageEditorView.swift:205-220 | `startPoint` is latched only on the first event of a drag, and `isSelecting` becomes true. The selection becomes the rectangle from the latched start to the current location. |
| Selection.SelectionOverlay.OnEnded | dama/ImageEditorView.swift:221-231 | The selection is handed on only when a drag was in progress and both its width and height exceed 0.02. From a state where a rectangle is shown exactly while a drag is in progress, the selection is handed on exactly in that case. The overlay is always reset. |
| Editor.Preview | dama/ImageEditorView.swift:164-171 | The preview is the original when there are no regions. Otherwise it is the engine's output for the region list, and it is absent when the engine returns nothing. |
| Editor.NewRegions | dama/ImageEditorView.swift:140-144 | One active region per rectangle, in the order received, each with the given intensity. |
| Editor.Shown | dama/ImageEditorView.swift:52-62 | The screen shows either the original or the preview. Without a preview it shows the original. |
| Editor.ShownWithoutActiveRegions | dama/ImageEditorView.swift:164-171 | While no region is active, the screen shows the original picture's pixels. |
| Editor.ImageEditor.constructor | dama/ImageEditorView.swift:130-132 | A new editor has no regions and shows the original. |
| Editor.ImageEditor.RefreshProcessedImage | dama/ImageEditorView.swift:164-171 | The preview becomes `Preview` of the current region list. |
| Editor.ImageEditor.AddMosaicRegion | dama/ImageEditorView.swift:148-150 | Appends one active region with the current intensity. The preview stays in step with the list. |
| Editor.ImageEditor.ToggleRegion | dama/ImageEditorView.swift:159-161 | The list becomes `Toggled` of the old one. The preview stays in step with the list. |
| Editor.ImageEditor.ClearAllMosaics | dama/ImageEditorView.swift:153-156 | No regions remain and the original is shown. |
| Editor.ImageEditor.AutoDetectSensitiveAreas | dama/ImageEditorView.swift:139-145 | Appends one active region per detected rectangle, in detection order, each with the current intensity. The preview stays in step with the list. |
| Editor.ImageEditor.DragChanged | dama/ImageEditorView.swift:205-220 | The drag is marked as in progress. The start point is latched from the gesture's start location only on the first event of a drag and kept afterwards. The selection becomes the rectangle from the latched start to the current location. |
| Editor.ImageEditor.DragEnded | dama/ImageEditorView.swift:221-231 | A region is added only for a selection that existed while a drag was in progress and passes the size guard. The overlay is reset either way, and its start point is left as it was. |
| Gallery.Rekeyed | dama/ContentView.swift:270-281 | A key is present exactly when its pre-removal key was: keys below the index stay, keys above it come down by one, and nothing else appears. Each key keeps its image. |
| Gallery.RekeyedLosesOnlyIndex | dama/ContentView.swift:270-281 | Every result other than the one at the removed index survives under its new key. |
| Gallery.RekeyProcessedImages | dama/ContentView.swift:270-281 | The dictionary loop, visiting keys in any order, builds exactly `Rekeyed`. |
| Gallery.ClampSelection | dama/ContentView.swift:284-286 | An index past the end of a non-empty list becomes its last index. Otherwise the index is unchanged. |
| Gallery.RemovalKeepsPairs | dama/ContentView.swift:262-281 | After a removal, each remaining result sits at the same key as its image in the shortened list. |
| Gallery.RekeyedKeysInRange | dama/ContentView.swift:270-281 | If every key was below the old image count, every key is below the new count. |
| Gallery.GalleryScreen.constructor | dama/ContentView.swift:13-19 | The screen starts with no images, no items, no results and selection 0. |
| Gallery.GalleryScreen.RemoveImage | dama/ContentView.swift:258-289 | Callable in any state, including one where the picker replaced the images and left stale result keys. An index past the end changes nothing. Otherwise the image goes, its picker item goes only when one exists at that index, the results are re-keyed and the selection is clamped. When results were keyed by valid image indices before, they still are. |
| Gallery.GalleryScreen.ClearAllMosaics | dama/ContentView.swift:251-255 | Empties both the region store and the processed results. The images and the selection stay. |

## Left out

- Pixelation.GetAverageColor: reads the block by CoreGraphics y, the same convention `context.fill` uses. The source reads `context.data`, whose rows run top-down, so it averages the vertically mirrored block. The model does not reproduce that mirrored read.
- Pixelation.FillBlock: overwrites the block's bytes with the floor mean colour. The source fills with `context.fill`, which composites source-over (`src + dst * (1 - alpha)`). Its `CGColor` takes straight colour components, but the means it is given are of premultiplied bytes, so they are premultiplied a second time. The model therefore agrees with the source only on blocks whose mean alpha is 255, and even there only up to the rounding of the floating-point components. For the same reason, MosaicLaws.MosaicBlockUniform, MosaicLaws.MosaicRegionsUniform and Tiling.MosaicRegionAt hold for the source only on opaque images. Tiling.MosaicRegionAt holds for the source, in addition, only where the mirrored read of Pixelation.GetAverageColor agrees with the block's own pixels. The source averages the vertically mirrored block of the partly processed buffer, not the pixel's own block of the image as it stood before the region.
- Pixelation.ApplyMosaic: copies the bitmap's bytes into the working buffer. The source draws the image into a new sRGB premultiplied context, and that colour conversion and row padding are not modelled.
- Geometry.PixelBounds, Geometry.PixelBoundsInImage, Selection.AcceptsSelection, Regions.SameRegion: `CGFloat` (a `Double`) is modelled as an exact `real`. Rounding is therefore not modelled. For example, `Int((1 - 0.3 - 0.4) * 100)` is 29 in `Double`, because the product is 29.999999999999993, while the model gives 30. In the same way, a drag exactly at the 0.02 threshold can compare differently. `CGRect`'s `==` compares standardized rectangles, so one with a negative size equals its normalized twin. `SameRegion` compares the four fields as given.
- Geometry.Trunc: does not model the trap `Int(_:)` raises on values outside the range of `Int`.
- Regions.MosaicProcessor.ToggleRegion and Regions.MosaicProcessor.RemoveRegion take a `nat` index. A negative index traps in the source, and the model excludes it by type. The same holds for Gallery.GalleryScreen.RemoveImage.
- Selection.SelectionOverlay.OnChanged requires a positive view size. The source divides by the view size unguarded.
- The Vision request, its handler and the dispatch queues are not modelled. The recogniser's outcome is the `Recognition` parameter, and completion runs synchronously.
- `@Published`/`onChange` observation is modelled as explicit calls: every editor operation that changes the list calls `RefreshProcessedImage` itself. The intensity picker's `onChange` refresh is not modelled, because the only intensity is `high` and it cannot change.
- The engine methods are module-level methods that take the buffer, not methods of `MosaicProcessor`. They read no processor state.
- SwiftUI layout, the manual-mode toggle, region indicators, the editor sheet's callback that stores a processed image, the "done" button, `print` logging and `displayName` are not modelled, because they are UI.
- Photo loading through `PhotosPicker`, `loadTransferable` and `UIImage(data:)` is not modelled, because it is asynchronous platform I/O.
- Gallery.GalleryScreen.RemoveImage: the model ends with the synchronous body of `removeImage`. The source then reacts to the removed picker item: `.onChange(of: selectedImages)` (dama/ContentView.swift:52-56) reruns `loadImages` (dama/ContentView.swift:235-247), which replaces `loadedImages` with a fresh decode of the remaining items. That reload is not modelled, because it is asynchronous platform I/O. It changes the outcome when an item failed to decode. With items [A, B, C] where B fails, `loadedImages` is [A, C], and removing index 1 drops C from the images but B from the items. The reload then brings C back.
- `removeImage` clamps the selected index only when it falls off the end. Removing an image before the selected one therefore leaves the index pointing at the next image. This is modelled as written.

## Findings

| source | as written | input that shows it | evidently intended | confidence | as-written member | corrected member |
|---|---|---|---|---|---|---|
| dama/MosaicProcessor.swift:120-129 | The block is clamped to the image, then iterated as `startY..<endY` and `startX..<endX`. A Swift range whose lower bound exceeds its upper bound traps. | Region `(x 0.9, y 0.0, w 0.5, h 0.5)` on a 100×100 image. Its pixel bounds are (90,50)–(140,100), and the block at column 110 clamps to the range 110..<100. | A block with no pixel inside the image is skipped, as `guard pixelCount > 0` intends. | not executed | Pixelation.AverageColorAsWritten, Pixelation.OverhangingRegionTraps | Pixelation.GetAverageColor |

=== FILE: detection.dfy ===
/**
 * Automatic detection: `detectText` and `detectSensitiveInfo`. The text
 * recogniser itself is not modelled; what it reports is a parameter, and the
 * model states how its bounding boxes become mosaic rectangles.
 */
module Detection {
  import opened Geometry
  import opened Wrappers
  import opened Raster

  /** What the text-recognition request ends with. */
  datatype Recognition =
    | Recognized(boxes: seq<Rect>)  // one normalised bounding box per observation, bottom-left origin
    | ResultsMissing                // the request's results are not text observations
    | HandlerFailed                 // performing the request threw

  /** Every bounding box converted to the top-left-origin convention of the editor. */
  function FlipAll(boxes: seq<Rect>): (flipped: seq<Rect>)
    ensures |flipped| == |boxes|
    ensures forall i | 0 <= i < |boxes| :: flipped[i] == FlipVertical(boxes[i])
  {
    if boxes == [] then [] else [FlipVertical(boxes[0])] + FlipAll(boxes[1..])
  }

  /**
   * `detectText`: nothing when the image has no bitmap or recognition fails,
   * otherwise one flipped rectangle per observation, in observation order.
   */
  function DetectText(image: Option<Bitmap>, recognition: Recognition): (rects: seq<Rect>)
    ensures image.None? || !recognition.Recognized? ==> rects == []
    ensures image.Some? && recognition.Recognized? ==>
      |rects| == |recognition.boxes|
      && forall i | 0 <= i < |rects| :: FlipVertical(rects[i]) == recognition.boxes[i]
  {
    match image
    case None => []
    case Some(_) =>
      match recognition
      case Recognized(boxes) =>
        assert forall i | 0 <= i < |boxes| :: FlipVertical(FlipVertical(boxes[i])) == boxes[i] by {
          forall i | 0 <= i < |boxes| ensures FlipVertical(FlipVertical(boxes[i])) == boxes[i] {
            FlipVerticalInvolutive(boxes[i]);
          }
        }
        FlipAll(boxes)
      case ResultsMissing => []
      case HandlerFailed => []
  }

  /** `detectSensitiveInfo`: hands the text rectangles on without filtering them. */
  function DetectSensitiveInfo(image: Option<Bitmap>, recognition: Recognition): (rects: seq<Rect>)
    ensures rects == DetectText(image, recognition)
  {
    DetectText(image, recognition)
  }

  /** Flipping twice gives the boxes back. */
  lemma {:induction false} FlipAllInvolutive(boxes: seq<Rect>)
    ensures FlipAll(FlipAll(boxes)) == boxes
  {
    if boxes != [] {
      FlipVerticalInvolutive(boxes[0]);
      FlipAllInvolutive(boxes[1..]);
      assert FlipAll(boxes)[1..] == FlipAll(boxes[1..]);
    }
  }

  /** Boxes inside the unit square give rectangles inside the unit square. */
  lemma DetectedInUnitSquare(image: Option<Bitmap>, recognition: Recognition)
    requires recognition.Recognized? ==> forall i | 0 <= i < |recognition.boxes| :: InUnitSquare(recognition.boxes[i])
    ensures forall i | 0 <= i < |DetectText(image, recognition)| :: InUnitSquare(DetectText(image, recognition)[i])
  {
    var rects := DetectText(image, recognition);
    forall i | 0 <= i < |rects|
      ensures InUnitSquare(rects[i])
    {
      FlipVerticalKeepsUnitSquare(rects[i]);
    }
  }
}

=== FILE: editor.dfy ===
/**
 * The image editor screen: it owns a mosaic processor and a selection
 * overlay, keeps the processed preview in step with the region list, and
 * turns finished drags and detected text into regions.
 */
module Editor {
  import opened Geometry
  import opened Wrappers
  import opened Raster
  import opened Regions
  import opened Pixelation
  import opened Detection
  import opened Selection
  import opened MosaicLaws

  /** A picture as the editor holds it: its bitmap, or none when it has no bitmap behind it. */
  datatype Picture = Picture(bitmap: Option<Bitmap>) {

    predicate Valid() {
      bitmap.Some? ==> bitmap.value.Valid()
    }
  }

  /**
   * The preview the editor keeps for a region list: the original while the
   * list is empty, otherwise the engine's output, which is absent when the
   * engine cannot draw the picture.
   */
  function Preview(original: Picture, regions: seq<Region>): (preview: Option<Picture>)
    requires original.Valid()
    ensures regions == [] ==> preview == Some(original)
    ensures regions != [] && preview.Some? ==>
      preview.value.bitmap == MosaicOutput(original.bitmap, regions) && preview.value.Valid()
    ensures regions != [] ==> (preview.None? <==> MosaicOutput(original.bitmap, regions).None?)
  {
    if regions == [] then Some(original)
    else match MosaicOutput(original.bitmap, regions)
      case None => None
      case Some(processed) => Some(Picture(Some(processed)))
  }

  /** What the screen displays: the preview when there is one, the original otherwise. */
  function Shown(original: Picture, preview: Option<Picture>): (shown: Picture)
    ensures shown == original || Some(shown) == preview
    ensures preview.None? ==> shown == original
  {
    if preview.Some? then preview.value else original
  }

  /** One active region per rectangle, all with the given intensity, in order. */
  function NewRegions(rects: seq<Rect>, intensity: Intensity): (regions: seq<Region>)
    ensures |regions| == |rects|
    ensures forall i | 0 <= i < |rects| :: regions[i] == Region(rects[i], intensity, true)
  {
    seq(|rects|, i requires 0 <= i < |rects| => Region(rects[i], intensity, true))
  }

  /** While no region is active the screen shows the original picture's pixels. */
  lemma ShownWithoutActiveRegions(original: Picture, regions: seq<Region>)
    requires original.Valid()
    requires forall i | 0 <= i < |regions| :: !regions[i].isActive
    ensures Shown(original, Preview(original, regions)) == original
  {
    if regions != [] && original.bitmap.Some? {
      var source := original.bitmap.value;
      MosaicRegionsInactive(source.bytes, source.width, source.height, regions);
    }
  }

  class ImageEditor {
    const originalImage: Picture
    const processor: MosaicProcessor
    const overlay: SelectionOverlay
    var processedImage: Option<Picture>

    /** The preview always matches the current region list. */
    ghost predicate Valid()
      reads this, processor, overlay
    {
      && originalImage.Valid()
      && overlay.Valid()
      && processedImage == Preview(originalImage, processor.mosaicRegions)
    }

    /** A new editor for a picture: no regions, and `onAppear` shows the original. */
    constructor (original: Picture)
      requires original.Valid()
      ensures Valid() && fresh(processor) && fresh(overlay)
      ensures originalImage == original && processor.mosaicRegions == [] && processedImage == Some(original)
    {
      originalImage := original;
      processor := new MosaicProcessor();
      overlay := new SelectionOverlay();
      processedImage := Some(original);
    }

    /** `refreshProcessedImage`, run whenever the region list changes. */
    method RefreshProcessedImage()
      requires originalImage.Valid()
      modifies this
      ensures processedImage == Preview(originalImage, processor.mosaicRegions)
    {
      if processor.mosaicRegions == [] {
        processedImage := Some(originalImage);
        return;
      }
      var processed := ApplyMosaic(originalImage.bitmap, processor.mosaicRegions);
      processedImage := if processed.Some? then Some(Picture(processed)) else None;
    }

    /** `addMosaicRegion`: appends an active region with the current intensity. */
    method AddMosaicRegion(rect: Rect)
      requires Valid()
      modifies this, processor`mosaicRegions
      ensures Valid()
      ensures processor.mosaicRegions == old(processor.mosaicRegions) + [Region(rect, processor.currentIntensity, true)]
    {
      processor.AddMosaicRegion(rect, processor.currentIntensity);
      RefreshProcessedImage();
    }

    /** `toggleRegion(at:)`. */
    method ToggleRegion(index: nat)
      requires Valid()
      modifies this, processor`mosaicRegions
      ensures Valid()
      ensures processor.mosaicRegions == Toggled(old(processor.mosaicRegions), index)
    {
      processor.ToggleRegion(index);
      RefreshProcessedImage();
    }

    /** `clearAllMosaics`: no regions, and the original on screen. */
    method ClearAllMosaics()
      requires Valid()
      modifies this, processor`mosaicRegions
      ensures Valid()
      ensures processor.mosaicRegions == [] && processedImage == Some(originalImage)
    {
      processor.ClearAllRegions();
      processedImage := Some(originalImage);
    }

    /**
     * `autoDetectSensitiveAreas`: one active region per detected rectangle,
     * appended in detection order with the current intensity.
     */
    method AutoDetectSensitiveAreas(recognition: Recognition)
      requires Valid()
      modifies this, processor`mosaicRegions
      ensures Valid()
      ensures processor.mosaicRegions
           == old(processor.mosaicRegions)
              + NewRegions(DetectSensitiveInfo(originalImage.bitmap, recognition), processor.currentIntensity)
    {
      var regions := DetectSensitiveInfo(originalImage.bitmap, recognition);
      var i := 0;
      while i < |regions|
        invariant 0 <= i <= |regions|
        invariant processor.mosaicRegions
               == old(processor.mosaicRegions) + NewRegions(regions[..i], processor.currentIntensity)
      {
        assert NewRegions(regions[..i + 1], processor.currentIntensity)
            == NewRegions(regions[..i], processor.currentIntensity) + [Region(regions[i], processor.currentIntensity, true)];
        processor.AddMosaicRegion(regions[i], processor.currentIntensity);
        i := i + 1;
      }
      assert regions[..i] == regions;
      RefreshProcessedImage();
    }

    /** A drag event over the overlay. */
    method DragChanged(startLocation: Point, location: Point, viewWidth: real, viewHeight: real)
      requires Valid() && 0.0 < viewWidth && 0.0 < viewHeight
      modifies overlay
      ensures Valid() && overlay.isSelecting
      ensures overlay.startPoint == if old(overlay.isSelecting) then old(overlay.startPoint) else startLocation
      ensures overlay.currentSelection == Some(SelectionRect(overlay.startPoint, location, viewWidth, viewHeight))
    {
      overlay.OnChanged(startLocation, location, viewWidth, viewHeight);
    }

    /**
     * The end of a drag: the selection becomes a region only when a drag was
     * in progress and the selection passes the size guard.
     */
    method DragEnded()
      requires Valid()
      modifies this, processor`mosaicRegions, overlay
      ensures Valid() && overlay.currentSelection == None && !overlay.isSelecting
      ensures overlay.startPoint == old(overlay.startPoint)
      ensures var selection := old(overlay.currentSelection);
        processor.mosaicRegions
        == old(processor.mosaicRegions)
           + if old(overlay.isSelecting) && selection.Some? && AcceptsSelection(selection.value)
             then [Region(selection.value, processor.currentIntensity, true)] else []
    {
      var completed := overlay.OnEnded();
      if completed.Some? {
        AddMosaicRegion(completed.value);
      }
    }
  }
}

=== FILE: gallery.dfy ===
/**
 * The gallery screen's bookkeeping when images go away: removing one image
 * from the loaded list, its picker item and its processed result, and
 * clearing every region and processed result.
 */
module Gallery {
  import opened Regions

  /** The key a result had before the removal at `index`, for its key `k` after it. */
  function OldKey(k: int, index: int): (j: int)
    ensures j != index
  {
    if k < index then k else k + 1
  }

  /** The key a result gets after the removal at `index`. */
  function NewKey(j: int, index: int): int {
    if j < index then j else j - 1
  }

  /**
   * The processed results re-keyed after the image at `index` is removed:
   * results below it keep their key, the result at it is dropped, and
   * results above it move down by one.
   */
  ghost function Rekeyed<V>(m: map<int, V>, index: int): (r: map<int, V>)
    ensures forall k :: k in r <==> OldKey(k, index) in m
    ensures forall k | k in r :: r[k] == m[OldKey(k, index)]
  {
    var kept := set j | j in m && j < index;
    var shifted := set j | j in m && index < j :: j - 1;
    map k | k in kept + shifted :: m[OldKey(k, index)]
  }

  /** Only the result at the removed index is lost: every other one is still there under its new key. */
  lemma RekeyedLosesOnlyIndex<V>(m: map<int, V>, index: int, j: int)
    requires j in m && j != index
    ensures NewKey(j, index) in Rekeyed(m, index) && Rekeyed(m, index)[NewKey(j, index)] == m[j]
  {
    assert OldKey(NewKey(j, index), index) == j;
  }

  /** A set of keys with no member is the empty set. */
  lemma NoKeysMeansEmpty(s: set<int>)
    requires forall j :: j !in s
    ensures s == {}
  {
    assert forall j :: j in s <==> j in {};
  }

  /** A non-empty set of pending keys has a key to visit next. */
  lemma SomeKeyPending(pending: set<int>)
    requires pending != {}
    ensures exists j :: j in pending
  {
    if !exists j :: j in pending {
      NoKeysMeansEmpty(pending);
      assert false;
    }
  }

  /** The re-keying loop of `removeImage`: visits every result once, in any order. */
  method RekeyProcessedImages<V>(processedImages: map<int, V>, index: int) returns (newProcessedImages: map<int, V>)
    ensures newProcessedImages == Rekeyed(processedImages, index)
  {
    newProcessedImages := map[];
    var pending := processedImages.Keys;
    while pending != {}
      invariant pending <= processedImages.Keys
      invariant forall k :: k in newProcessedImages <==> OldKey(k, index) in processedImages && OldKey(k, index) !in pending
      invariant forall k | k in newProcessedImages :: newProcessedImages[k] == processedImages[OldKey(k, index)]
      decreases |pending|
    {
      SomeKeyPending(pending);
      var oldIndex :| oldIndex in pending;
      var image := processedImages[oldIndex];
      if oldIndex < index {
        newProcessedImages := newProcessedImages[oldIndex := image];
      } else if oldIndex > index {
        newProcessedImages := newProcessedImages[oldIndex - 1 := image];
      }
      pending := pending - {oldIndex};
    }
    assert pending == {};
    forall k
      ensures k in newProcessedImages <==> k in Rekeyed(processedImages, index)
    {
    }
  }

  /** The selection index after a removal: pulled back onto the last image when it fell off the end. */
  function ClampSelection(selectedImageIndex: int, count: nat): (index: int)
    ensures count > 0 && selectedImageIndex >= count ==> index == count - 1
    ensures count == 0 || selectedImageIndex < count ==> index == selectedImageIndex
  {
    if selectedImageIndex >= count && count > 0 then count - 1 else selectedImageIndex
  }

  /**
   * After a removal every remaining processed result sits at the same key as
   * its original image in the shortened list: pairs that matched before
   * still match.
   */
  lemma RemovalKeepsPairs<I, V>(loaded: seq<I>, processed: map<int, V>, index: nat, k: int)
    requires index < |loaded|
    requires k in Rekeyed(processed, index)
    ensures var j := OldKey(k, index);
      j in processed && Rekeyed(processed, index)[k] == processed[j]
      && (0 <= k < |loaded| - 1 ==> Removed(loaded, index)[k] == loaded[j])
  {
  }

  /** Results keyed by indices of the loaded list stay keyed by indices of the shortened list. */
  lemma RekeyedKeysInRange<V>(processed: map<int, V>, index: nat, count: nat)
    requires index < count
    requires forall k | k in processed :: 0 <= k < count
    ensures forall k | k in Rekeyed(processed, index) :: 0 <= k < count - 1
  {
  }

  /** The gallery state that `removeImage` and `clearAllMosaics` change. */
  class GalleryScreen<Image, Item> {
    var loadedImages: seq<Image>
    var selectedImages: seq<Item>
    var processedImages: map<int, Image>
    var selectedImageIndex: int
    const processor: MosaicProcessor

    /** Results are keyed by indices of the loaded list, and the selection is one of them when there are images. */
    ghost predicate Valid()
      reads this
    {
      && (forall k | k in processedImages :: 0 <= k < |loadedImages|)
      && 0 <= selectedImageIndex
      && (|loadedImages| > 0 ==> selectedImageIndex < |loadedImages|)
    }

    constructor ()
      ensures Valid() && fresh(processor)
      ensures loadedImages == [] && selectedImages == [] && processedImages == map[] && selectedImageIndex == 0
      ensures processor.mosaicRegions == []
    {
      loadedImages := [];
      selectedImages := [];
      processedImages := map[];
      selectedImageIndex := 0;
      processor := new MosaicProcessor();
    }

    /**
     * `removeImage(at:)`: an index past the end changes nothing; otherwise
     * the image, its picker item (when there is one at that index) and its
     * processed result go, later results move down, and the selection is
     * clamped to the shortened list. Results keyed by image indices, and a
     * selection that is an image index, stay so; a state where they are not
     * (after the picker replaced the images) is handled all the same.
     */
    method RemoveImage(index: nat)
      modifies this
      ensures old(Valid()) ==> Valid()
      ensures index >= old(|loadedImages|) ==>
        loadedImages == old(loadedImages) && selectedImages == old(selectedImages)
        && processedImages == old(processedImages) && selectedImageIndex == old(selectedImageIndex)
      ensures index < old(|loadedImages|) ==>
        && loadedImages == Removed(old(loadedImages), index)
        && selectedImages == Removed(old(selectedImages), index)
        && processedImages == Rekeyed(old(processedImages), index)
        && selectedImageIndex == ClampSelection(old(selectedImageIndex), |loadedImages|)
    {
      if index >= |loadedImages| {
        return;
      }
      loadedImages := Removed(loadedImages, index);
      if index < |selectedImages| {
        selectedImages := Removed(selectedImages, index);
      }
      processedImages := RekeyProcessedImages(processedImages, index);
      if old(Valid()) {
        RekeyedKeysInRange(old(processedImages), index, old(|loadedImages|));
      }
      if selectedImageIndex >= |loadedImages| && |loadedImages| > 0 {
        selectedImageIndex := |loadedImages| - 1;
      }
    }

    /** `clearAllMosaics`: no regions and no processed results; the images stay. */
    method ClearAllMosaics()
      modifies this, processor`mosaicRegions
      ensures processor.mosaicRegions == [] && processedImages == map[]
      ensures loadedImages == old(loadedImages) && selectedImages == old(selectedImages)
      ensures selectedImageIndex == old(selectedImageIndex)
    {
      processor.ClearAllRegions();
      processedImages := map[];
    }
  }
}

=== FILE: geometry.dfy ===
/**
 * Rectangles and the coordinate conversions of the mosaic processor.
 *
 * Region rectangles are normalized to the unit square with the origin at the
 * top left and y growing downward. The pixelation engine maps them to integer
 * pixel boxes in the buffer's convention, whose origin is at the bottom left,
 * so the vertical axis is flipped on the way. Floating point is modelled by
 * exact `real` arithmetic.
 */
module Geometry {

  /** A CGRect: origin and size. */
  datatype Rect = Rect(x: real, y: real, width: real, height: real)

  /** A CGPoint. */
  datatype Point = Point(x: real, y: real)

  /** A half-open integer pixel box [x0, x1) x [y0, y1). */
  datatype Box = Box(x0: int, y0: int, x1: int, y1: int) {

    predicate Contains(x: int, y: int) {
      x0 <= x < x1 && y0 <= y < y1
    }

    predicate IsEmpty() {
      x1 <= x0 || y1 <= y0
    }
  }

  function Min(a: int, b: int): int {
    if a <= b then a else b
  }

  function Max(a: int, b: int): int {
    if a <= b then b else a
  }

  /** The rectangle lies inside the unit square and has a non-negative size. */
  predicate InUnitSquare(r: Rect) {
    && 0.0 <= r.x && 0.0 <= r.y && 0.0 <= r.width && 0.0 <= r.height
    && r.x + r.width <= 1.0 && r.y + r.height <= 1.0
  }

  /**
   * Swift's `Int(_: Double)`: truncation toward zero (the trap on values that
   * do not fit in an `Int` is not modelled).
   */
  function Trunc(v: real): (n: int)
    ensures 0.0 <= v ==> 0 <= n && n as real <= v < n as real + 1.0
    ensures v < 0.0 ==> n <= 0 && n as real - 1.0 < v <= n as real
  {
    if 0.0 <= v then v.Floor else -((-v).Floor)
  }

  /**
   * The vertical flip between a bottom-left-origin normalized box and a
   * top-left-origin one: `y' = 1 - y - height`. The text detector applies it
   * to every bounding box it receives.
   */
  function FlipVertical(r: Rect): (f: Rect)
    ensures f.x == r.x && f.width == r.width && f.height == r.height
    ensures f.y + f.height == 1.0 - r.y
  {
    Rect(r.x, 1.0 - r.y - r.height, r.width, r.height)
  }

  lemma FlipVerticalInvolutive(r: Rect)
    ensures FlipVertical(FlipVertical(r)) == r
  {
  }

  lemma FlipVerticalKeepsUnitSquare(r: Rect)
    ensures InUnitSquare(r) <==> InUnitSquare(FlipVertical(r))
  {
  }

  /**
   * A normalized rectangle scaled to a width x height image. A rectangle
   * inside the unit square lands inside the image.
   */
  function Scale(r: Rect, width: nat, height: nat): (s: Rect)
    ensures InUnitSquare(r) ==>
      && 0.0 <= s.x <= s.x + s.width <= width as real
      && 0.0 <= s.y <= s.y + s.height <= height as real
  {
    var s := Rect(r.x * width as real, r.y * height as real,
                  r.width * width as real, r.height * height as real);
    if InUnitSquare(r) then
      ScaleSpan(r.x, r.width, r.x + r.width, width as real);
      ScaleSpan(r.y, r.height, r.y + r.height, height as real);
      s
    else s
  }

  /**
   * The `flippedRect` of the pixelation engine: the region's rectangle moved
   * to bottom-left-origin coordinates and scaled to the image.
   */
  function FlippedRect(r: Rect, width: nat, height: nat): (f: Rect)
    ensures f.x + f.width == (r.x + r.width) * width as real
    ensures f.y == (1.0 - (r.y + r.height)) * height as real
    ensures f.y + f.height == (1.0 - r.y) * height as real
  {
    Rect(r.x * width as real,
         (1.0 - r.y - r.height) * height as real,
         r.width * width as real,
         r.height * height as real)
  }

  /** The engine's flip is the detector's flip followed by scaling. */
  lemma FlippedRectIsScaledFlip(r: Rect, width: nat, height: nat)
    ensures FlippedRect(r, width, height) == Scale(FlipVertical(r), width, height)
  {
  }

  /** Truncation never reverses the order of two values. */
  lemma TruncMonotone(u: real, v: real)
    requires u <= v
    ensures Trunc(u) <= Trunc(v)
  {
    if 0.0 <= u {
      assert Trunc(u) as real <= u <= v < Trunc(v) as real + 1.0;
    } else if v < 0.0 {
      assert Trunc(u) as real - 1.0 < u <= v <= Trunc(v) as real;
    }
  }

  /**
   * The integer bounds `startX, startY, endX, endY` the engine tiles. A
   * rectangle whose size is not negative gives bounds that are not inverted.
   */
  function PixelBounds(r: Rect, width: nat, height: nat): (b: Box)
    ensures 0.0 <= r.width ==> b.x0 <= b.x1
    ensures 0.0 <= r.height ==> b.y0 <= b.y1
  {
    var f := FlippedRect(r, width, height);
    var b := Box(Trunc(f.x), Trunc(f.y), Trunc(f.x + f.width), Trunc(f.y + f.height));
    if 0.0 <= r.width && 0.0 <= r.height then
      TruncMonotone(f.x, f.x + f.width);
      TruncMonotone(f.y, f.y + f.height);
      b
    else if 0.0 <= r.width then
      TruncMonotone(f.x, f.x + f.width);
      b
    else if 0.0 <= r.height then
      TruncMonotone(f.y, f.y + f.height);
      b
    else b
  }

  /**
   * For a rectangle inside the unit square the truncations are floors, the
   * vertical extent is measured from the bottom of the image, and the bounds
   * lie inside the image.
   */
  lemma PixelBoundsInImage(r: Rect, width: nat, height: nat)
    requires InUnitSquare(r)
    ensures var b := PixelBounds(r, width, height);
      && b.x0 == (r.x * width as real).Floor
      && b.y0 == ((1.0 - r.y - r.height) * height as real).Floor
      && b.x1 == ((r.x + r.width) * width as real).Floor
      && b.y1 == ((1.0 - r.y) * height as real).Floor
      && 0 <= b.x0 <= b.x1 <= width
      && 0 <= b.y0 <= b.y1 <= height
  {
    var f := FlippedRect(r, width, height);
    FlippedRectInImage(r, width, height);
    TruncSpan(f.x, f.x + f.width, width);
    TruncSpan(f.y, f.y + f.height, height);
  }

  /** The scaled, flipped rectangle of a rectangle inside the unit square lies inside the image. */
  lemma FlippedRectInImage(r: Rect, width: nat, height: nat)
    requires InUnitSquare(r)
    ensures var f := FlippedRect(r, width, height);
      && f.x == r.x * width as real
      && f.y == (1.0 - r.y - r.height) * height as real
      && f.x + f.width == (r.x + r.width) * width as real
      && f.y + f.height == (1.0 - r.y) * height as real
      && 0.0 <= f.x <= f.x + f.width <= width as real
      && 0.0 <= f.y <= f.y + f.height <= height as real
  {
    var W, H := width as real, height as real;
    ScaleSpan(r.x, r.width, r.x + r.width, W);
    ScaleSpan(1.0 - r.y - r.height, r.height, 1.0 - r.y, H);
    assert (r.x + r.width) * W <= W;
    assert (1.0 - r.y) * H <= H;
  }

  /** A span [lo, hi] of length len inside [0, 1], scaled by k >= 0. */
  lemma ScaleSpan(lo: real, len: real, hi: real, k: real)
    requires 0.0 <= lo && 0.0 <= len && hi == lo + len && hi <= 1.0 && 0.0 <= k
    ensures 0.0 <= lo * k <= hi * k <= k
    ensures lo * k + len * k == hi * k
  {
    ScaleMonotone(0.0, lo, k);
    ScaleMonotone(lo, hi, k);
    ScaleMonotone(hi, 1.0, k);
  }

  /** Truncating two ordered non-negative values no larger than n. */
  lemma TruncSpan(a: real, b: real, n: nat)
    requires 0.0 <= a <= b <= n as real
    ensures Trunc(a) == a.Floor && Trunc(b) == b.Floor
    ensures 0 <= a.Floor <= b.Floor <= n
  {
    FloorMonotone(a, b);
    FloorMonotone(b, n as real);
  }

  lemma FloorMonotone(a: real, b: real)
    requires a <= b
    ensures a.Floor <= b.Floor
  {
  }

  lemma ScaleMonotone(a: real, b: real, k: real)
    requires a <= b && 0.0 <= k
    ensures a * k <= b * k
  {
    assert b * k - a * k == (b - a) * k;
  }
}

=== FILE: mosaic_laws.dfy ===
/**
 * What the pixelation engine does to an image: each block gets its floor
 * mean colour, pixels outside every active region are never touched, an
 * image of one colour comes out unchanged, and inactive regions change
 * nothing.
 */
module MosaicLaws {
  import opened Geometry
  import opened Wrappers
  import opened Raster
  import opened Regions
  import opened Pixelation

  /** Every pixel of the image has colour p. */
  predicate Uniform(buf: seq<byte>, width: nat, height: nat, p: Color)
    requires Shaped(buf, width, height)
  {
    forall x, y, c | 0 <= x < width && 0 <= y < height && 0 <= c < BytesPerPixel ::
      At(buf, width, height, x, y, c) == p.Channel(c)
  }

  // ---------------------------------------------------------------------------
  // One block

  /**
   * A block that holds a pixel of the image paints each of its pixels with
   * the block's per-channel floor mean; every other pixel keeps its value.
   */
  lemma MosaicBlockAt(buf: seq<byte>, width: nat, height: nat, b: Box, x: int, y: int, c: nat)
    requires Shaped(buf, width, height)
    requires 0 <= x < width && 0 <= y < height && c < BytesPerPixel
    ensures b.Contains(x, y) ==> 0 < Area(Window(b, width, height))
    ensures At(MosaicBlock(buf, width, height, b), width, height, x, y, c)
         == if b.Contains(x, y) then ChannelMean(buf, width, height, Window(b, width, height), c)
            else At(buf, width, height, x, y, c)
  {
    var w := Window(b, width, height);
    if b.Contains(x, y) {
      assert w.Contains(x, y);
      assert 0 < Columns(w) && 0 < Rows(w);
    }
    match Mean(buf, width, height, b)
    case None =>
    case Some(p) =>
      FilledAt(buf, width, height, b, p, x, y, c);
  }

  /** The row sums of an image of one colour: the channel value once per column. */
  lemma {:induction false} RowSumUniform(buf: seq<byte>, width: nat, height: nat, p: Color, y: int, x0: int, x1: int, c: nat)
    requires Shaped(buf, width, height) && Uniform(buf, width, height, p)
    requires 0 <= y < height && 0 <= x0 && x1 <= width && c < BytesPerPixel
    ensures RowSum(buf, width, height, y, x0, x1, c) == p.Channel(c) as int * Columns(Box(x0, y, x1, y + 1))
    decreases x1 - x0
  {
    if x0 < x1 {
      RowSumUniform(buf, width, height, p, y, x0, x1 - 1, c);
      var n := Columns(Box(x0, y, x1 - 1, y + 1));
      assert Columns(Box(x0, y, x1, y + 1)) == n + 1;
      assert p.Channel(c) as int * (n + 1) == p.Channel(c) as int * n + p.Channel(c) as int;
    }
  }

  /** The window sums of an image of one colour: the channel value once per pixel. */
  lemma {:induction false} WindowSumUniform(buf: seq<byte>, width: nat, height: nat, p: Color, w: Box, c: nat)
    requires Shaped(buf, width, height) && Uniform(buf, width, height, p)
    requires InImage(w, width, height) && c < BytesPerPixel
    ensures WindowSum(buf, width, height, w, c) == p.Channel(c) as int * Area(w)
    decreases w.y1 - w.y0
  {
    if w.y0 < w.y1 {
      var w' := w.(y1 := w.y1 - 1);
      WindowSumUniform(buf, width, height, p, w', c);
      RowSumUniform(buf, width, height, p, w.y1 - 1, w.x0, w.x1, c);
      AreaAddRow(w', w.y1 - 1);
      assert w'.(y1 := w.y1 - 1 + 1) == w;
      assert Columns(Box(w.x0, w.y1 - 1, w.x1, w.y1)) == Columns(w');
      var k := p.Channel(c) as int;
      assert k * (Area(w') + Columns(w')) == k * Area(w') + k * Columns(w');
    }
  }

  /** The floor mean of a window of one colour is that colour. */
  lemma ChannelMeanUniform(buf: seq<byte>, width: nat, height: nat, p: Color, w: Box, c: nat)
    requires Shaped(buf, width, height) && Uniform(buf, width, height, p)
    requires InImage(w, width, height) && c < BytesPerPixel && 0 < Area(w)
    ensures ChannelMean(buf, width, height, w, c) == p.Channel(c)
  {
    WindowSumUniform(buf, width, height, p, w, c);
    FloorOfMultiple(WindowSum(buf, width, height, w, c), Area(w),
                    ChannelMean(buf, width, height, w, c) as int, p.Channel(c) as int);
  }

  /** The only floor quotient of k * n by n is k. */
  lemma FloorOfMultiple(s: int, n: int, m: int, k: int)
    requires 0 < n && s == k * n && m * n <= s < (m + 1) * n
    ensures m == k
  {
    if m < k {
      MulMonotone(m + 1, k, n);
    } else if k < m {
      assert (k + 1) * n == k * n + n;
      MulMonotone(k + 1, m, n);
    }
  }

  /** A block of an image of one colour is painted with that colour, which changes nothing. */
  lemma MosaicBlockUniform(buf: seq<byte>, width: nat, height: nat, p: Color, b: Box)
    requires Shaped(buf, width, height) && Uniform(buf, width, height, p)
    ensures MosaicBlock(buf, width, height, b) == buf
  {
    var w := Window(b, width, height);
    if 0 < Area(w) {
      ChannelMeanUniform(buf, width, height, p, w, 0);
      ChannelMeanUniform(buf, width, height, p, w, 1);
      ChannelMeanUniform(buf, width, height, p, w, 2);
      ChannelMeanUniform(buf, width, height, p, w, 3);
      assert Mean(buf, width, height, b) == Some(p);
      forall x, y, c | 0 <= x < width && 0 <= y < height && 0 <= c < BytesPerPixel
        ensures At(Filled(buf, width, height, b, p), width, height, x, y, c) == At(buf, width, height, x, y, c)
      {
        FilledAt(buf, width, height, b, p, x, y, c);
      }
      SameEverywhere(Filled(buf, width, height, b, p), buf, width, height);
    }
  }

  // ---------------------------------------------------------------------------
  // An image of one colour

  lemma {:induction false} MosaicRowUniform(buf: seq<byte>, width: nat, height: nat, p: Color, bounds: Box, x: int, y: int, blockSize: nat)
    requires Shaped(buf, width, height) && Uniform(buf, width, height, p) && 0 < blockSize
    ensures MosaicRow(buf, width, height, bounds, x, y, blockSize) == buf
    decreases bounds.x1 - x
  {
    if x < bounds.x1 {
      MosaicBlockUniform(buf, width, height, p, BlockAt(bounds, x, y, blockSize));
      MosaicRowUniform(buf, width, height, p, bounds, x + blockSize, y, blockSize);
    }
  }

  lemma {:induction false} MosaicRowsUniform(buf: seq<byte>, width: nat, height: nat, p: Color, bounds: Box, y: int, blockSize: nat)
    requires Shaped(buf, width, height) && Uniform(buf, width, height, p) && 0 < blockSize
    ensures MosaicRows(buf, width, height, bounds, y, blockSize) == buf
    decreases bounds.y1 - y
  {
    if y < bounds.y1 {
      MosaicRowUniform(buf, width, height, p, bounds, bounds.x0, y, blockSize);
      MosaicRowsUniform(buf, width, height, p, bounds, y + blockSize, blockSize);
    }
  }

  /**
   * An image of a single colour comes out of the engine unchanged, whatever
   * the regions: every block's mean is that colour.
   */
  lemma {:induction false} MosaicRegionsUniform(buf: seq<byte>, width: nat, height: nat, p: Color, regions: seq<Region>)
    requires Shaped(buf, width, height) && Uniform(buf, width, height, p)
    ensures MosaicRegions(buf, width, height, regions) == buf
    decreases |regions|
  {
    if regions != [] {
      if regions[0].isActive {
        var bounds := PixelBounds(regions[0].rect, width, height);
        MosaicRowsUniform(buf, width, height, p, bounds, bounds.y0, regions[0].intensity.BlockSize());
      }
      MosaicRegionsUniform(buf, width, height, p, regions[1..]);
    }
  }

  // ---------------------------------------------------------------------------
  // Pixels outside the regions

  /** The blocks of a row of the tiling leave every pixel outside the tiled bounds alone. */
  lemma {:induction false} MosaicRowOutside(buf: seq<byte>, width: nat, height: nat, bounds: Box, x: int, y: int, blockSize: nat,
                                           px: int, py: int, c: nat)
    requires Shaped(buf, width, height) && 0 < blockSize
    requires bounds.x0 <= x && bounds.y0 <= y
    requires 0 <= px < width && 0 <= py < height && c < BytesPerPixel && !bounds.Contains(px, py)
    ensures At(MosaicRow(buf, width, height, bounds, x, y, blockSize), width, height, px, py, c) == At(buf, width, height, px, py, c)
    decreases bounds.x1 - x
  {
    if x < bounds.x1 {
      var b := BlockAt(bounds, x, y, blockSize);
      MosaicBlockAt(buf, width, height, b, px, py, c);
      MosaicRowOutside(MosaicBlock(buf, width, height, b), width, height, bounds, x + blockSize, y, blockSize, px, py, c);
    }
  }

  lemma {:induction false} MosaicRowsOutside(buf: seq<byte>, width: nat, height: nat, bounds: Box, y: int, blockSize: nat,
                                            px: int, py: int, c: nat)
    requires Shaped(buf, width, height) && 0 < blockSize && bounds.y0 <= y
    requires 0 <= px < width && 0 <= py < height && c < BytesPerPixel && !bounds.Contains(px, py)
    ensures At(MosaicRows(buf, width, height, bounds, y, blockSize), width, height, px, py, c) == At(buf, width, height, px, py, c)
    decreases bounds.y1 - y
  {
    if y < bounds.y1 {
      MosaicRowOutside(buf, width, height, bounds, bounds.x0, y, blockSize, px, py, c);
      MosaicRowsOutside(MosaicRow(buf, width, height, bounds, bounds.x0, y, blockSize), width, height, bounds, y + blockSize, blockSize, px, py, c);
    }
  }

  /** A pixel outside the pixel bounds of every active region keeps its value. */
  lemma {:induction false} MosaicRegionsOutside(buf: seq<byte>, width: nat, height: nat, regions: seq<Region>, px: int, py: int, c: nat)
    requires Shaped(buf, width, height)
    requires 0 <= px < width && 0 <= py < height && c < BytesPerPixel
    requires forall i | 0 <= i < |regions| && regions[i].isActive :: !PixelBounds(regions[i].rect, width, height).Contains(px, py)
    ensures At(MosaicRegions(buf, width, height, regions), width, height, px, py, c) == At(buf, width, height, px, py, c)
    decreases |regions|
  {
    if regions != [] {
      var next := buf;
      if regions[0].isActive {
        var bounds := PixelBounds(regions[0].rect, width, height);
        MosaicRowsOutside(buf, width, height, bounds, bounds.y0, regions[0].intensity.BlockSize(), px, py, c);
        next := MosaicRegion(buf, width, height, regions[0]);
      }
      assert forall i | 0 <= i < |regions[1..]| && regions[1..][i].isActive ::
        !PixelBounds(regions[1..][i].rect, width, height).Contains(px, py) by {
        forall i | 0 <= i < |regions[1..]| && regions[1..][i].isActive
          ensures !PixelBounds(regions[1..][i].rect, width, height).Contains(px, py)
        {
          assert regions[1..][i] == regions[i + 1];
        }
      }
      MosaicRegionsOutside(next, width, height, regions[1..], px, py, c);
    }
  }

  // ---------------------------------------------------------------------------
  // Order and activity

  /** Regions are applied one after the other: the result for a + b is b applied to the result for a. */
  lemma {:induction false} MosaicRegionsAppend(buf: seq<byte>, width: nat, height: nat, a: seq<Region>, b: seq<Region>)
    requires Shaped(buf, width, height)
    ensures MosaicRegions(buf, width, height, a + b)
         == MosaicRegions(MosaicRegions(buf, width, height, a), width, height, b)
    decreases |a|
  {
    if a != [] {
      assert (a + b)[0] == a[0];
      assert (a + b)[1..] == a[1..] + b;
      var next := if a[0].isActive then MosaicRegion(buf, width, height, a[0]) else buf;
      MosaicRegionsAppend(next, width, height, a[1..], b);
    } else {
      assert a + b == b;
    }
  }

  /** With no active region the engine changes nothing. */
  lemma {:induction false} MosaicRegionsInactive(buf: seq<byte>, width: nat, height: nat, regions: seq<Region>)
    requires Shaped(buf, width, height)
    requires forall i | 0 <= i < |regions| :: !regions[i].isActive
    ensures MosaicRegions(buf, width, height, regions) == buf
    decreases |regions|
  {
    if regions != [] {
      assert forall i | 0 <= i < |regions[1..]| :: !regions[1..][i].isActive by {
        forall i | 0 <= i < |regions[1..]| ensures !regions[1..][i].isActive {
          assert regions[1..][i] == regions[i + 1];
        }
      }
      MosaicRegionsInactive(buf, width, height, regions[1..]);
    }
  }
}

=== FILE: pixelation.dfy ===
/**
 * The pixelation engine of the mosaic processor: `applyMosaic`,
 * `applyMosaicToRegion` and `getAverageColor`.
 *
 * The functions give the result of each step on a buffer value; the methods
 * do the same work in place on an array and are proved to agree with them.
 */
module Pixelation {
  import opened Geometry
  import opened Wrappers
  import opened Raster
  import opened Regions

  /**
   * The block of the tiling of `bounds` whose corner is (x, y): `blockSize`
   * wide and high, clipped to the end of the bounds.
   */
  function BlockAt(bounds: Box, x: int, y: int, blockSize: nat): (b: Box)
    ensures b.x0 == x && b.y0 == y
    ensures b.x1 <= bounds.x1 && b.x1 <= x + blockSize && b.y1 <= bounds.y1 && b.y1 <= y + blockSize
    ensures x < bounds.x1 ==> b.x1 == x + blockSize || b.x1 == bounds.x1
    ensures y < bounds.y1 ==> b.y1 == y + blockSize || b.y1 == bounds.y1
    ensures x < bounds.x1 && 0 < blockSize ==> 0 < b.x1 - b.x0 <= blockSize
    ensures y < bounds.y1 && 0 < blockSize ==> 0 < b.y1 - b.y0 <= blockSize
  {
    Box(x, y, x + Min(blockSize, bounds.x1 - x), y + Min(blockSize, bounds.y1 - y))
  }

  /** One block: filled with its mean colour, or left alone when it holds no pixel. */
  function MosaicBlock(buf: seq<byte>, width: nat, height: nat, b: Box): (r: seq<byte>)
    requires Shaped(buf, width, height)
    ensures Shaped(r, width, height)
  {
    match Mean(buf, width, height, b)
    case None => buf
    case Some(p) => Filled(buf, width, height, b, p)
  }

  /** The blocks of one row of the tiling, from column x on, left to right. */
  function MosaicRow(buf: seq<byte>, width: nat, height: nat, bounds: Box, x: int, y: int, blockSize: nat): (r: seq<byte>)
    requires Shaped(buf, width, height) && 0 < blockSize
    ensures Shaped(r, width, height)
    decreases bounds.x1 - x
  {
    if bounds.x1 <= x then buf
    else MosaicRow(MosaicBlock(buf, width, height, BlockAt(bounds, x, y, blockSize)),
                   width, height, bounds, x + blockSize, y, blockSize)
  }

  /** The rows of the tiling, from row y on, in increasing y. */
  function MosaicRows(buf: seq<byte>, width: nat, height: nat, bounds: Box, y: int, blockSize: nat): (r: seq<byte>)
    requires Shaped(buf, width, height) && 0 < blockSize
    ensures Shaped(r, width, height)
    decreases bounds.y1 - y
  {
    if bounds.y1 <= y then buf
    else MosaicRows(MosaicRow(buf, width, height, bounds, bounds.x0, y, blockSize),
                    width, height, bounds, y + blockSize, blockSize)
  }

  /** `applyMosaicToRegion`: the region's pixel bounds tiled with blocks of its intensity. */
  function MosaicRegion(buf: seq<byte>, width: nat, height: nat, region: Region): (r: seq<byte>)
    requires Shaped(buf, width, height)
    ensures Shaped(r, width, height)
  {
    var bounds := PixelBounds(region.rect, width, height);
    MosaicRows(buf, width, height, bounds, bounds.y0, region.intensity.BlockSize())
  }

  /** The active regions applied in store order, each to the result of the ones before. */
  function MosaicRegions(buf: seq<byte>, width: nat, height: nat, regions: seq<Region>): (r: seq<byte>)
    requires Shaped(buf, width, height)
    ensures Shaped(r, width, height)
    decreases |regions|
  {
    if regions == [] then buf
    else
      var next := if regions[0].isActive then MosaicRegion(buf, width, height, regions[0]) else buf;
      MosaicRegions(next, width, height, regions[1..])
  }

  /**
   * `applyMosaic`: nothing when there is no image or no drawing context can
   * be made for it (zero width or height); otherwise an image of the same
   * size holding the mosaic of its active regions.
   */
  function MosaicOutput(image: Option<Bitmap>, regions: seq<Region>): (out: Option<Bitmap>)
    requires image.Some? ==> image.value.Valid()
    ensures out.None? <==> image.None? || image.value.width == 0 || image.value.height == 0
    ensures out.Some? ==>
      out.value.Valid() && out.value.width == image.value.width && out.value.height == image.value.height
  {
    match image
    case None => None
    case Some(source) =>
      if source.width == 0 || source.height == 0 then None
      else Some(Bitmap(source.width, source.height,
                       MosaicRegions(source.bytes, source.width, source.height, regions)))
  }

  // ---------------------------------------------------------------------------
  // The engine, in place

  /**
   * `getAverageColor`: sums each channel over the block clamped to the
   * image, row by row, and divides by the number of pixels summed.
   */
  method GetAverageColor(context: array<byte>, width: nat, height: nat, rect: Box) returns (color: Option<Color>)
    requires Shaped(context[..], width, height)
    ensures color == Mean(context[..], width, height, rect)
  {
    var startX := Max(0, rect.x0);
    var startY := Max(0, rect.y0);
    var endX := Min(width, rect.x1);
    var endY := Min(height, rect.y1);
    if endX <= startX || endY <= startY {
      // An empty or inverted range holds no pixel.
      return None;
    }
    var totalR, totalG, totalB, totalA, pixelCount := SumWindow(context, width, height, Box(startX, startY, endX, endY));
    MeanOfSums(context[..], width, height, rect, totalR, totalG, totalB, totalA, pixelCount);
    color := Some(Color((totalR / pixelCount) as byte, (totalG / pixelCount) as byte,
                        (totalB / pixelCount) as byte, (totalA / pixelCount) as byte));
  }

  /** The loops of `getAverageColor`: the channel sums and the pixel count of a window, row by row. */
  method SumWindow(context: array<byte>, width: nat, height: nat, w: Box)
      returns (totalR: int, totalG: int, totalB: int, totalA: int, pixelCount: int)
    requires Shaped(context[..], width, height) && InImage(w, width, height) && w.x0 <= w.x1 && w.y0 <= w.y1
    ensures totalR == WindowSum(context[..], width, height, w, 0)
    ensures totalG == WindowSum(context[..], width, height, w, 1)
    ensures totalB == WindowSum(context[..], width, height, w, 2)
    ensures totalA == WindowSum(context[..], width, height, w, 3)
    ensures pixelCount == Area(w)
  {
    totalR, totalG, totalB, totalA := 0, 0, 0, 0;
    pixelCount := 0;
    var y := w.y0;
    while y < w.y1
      invariant w.y0 <= y <= w.y1
      invariant totalR == WindowSum(context[..], width, height, w.(y1 := y), 0)
      invariant totalG == WindowSum(context[..], width, height, w.(y1 := y), 1)
      invariant totalB == WindowSum(context[..], width, height, w.(y1 := y), 2)
      invariant totalA == WindowSum(context[..], width, height, w.(y1 := y), 3)
      invariant pixelCount == Area(w.(y1 := y))
    {
      var rowR, rowG, rowB, rowA := SumRow(context, width, height, y, w.x0, w.x1);
      totalR, totalG, totalB, totalA := totalR + rowR, totalG + rowG, totalB + rowB, totalA + rowA;
      pixelCount := pixelCount + Columns(w);
      AreaAddRow(w, y);
      WindowSumAddRow(context[..], width, height, w, y);
      y := y + 1;
    }
    assert w.(y1 := y) == w;
  }

  /** What a call ends in: a runtime trap, or a returned value. */
  datatype Outcome<T> = Trapped | Returned(value: T)

  /**
   * `getAverageColor` exactly as written: the Swift range `startY..<endY`
   * traps when its lower bound exceeds its upper bound, and so does
   * `startX..<endX` once the row loop runs.
   */
  function AverageColorAsWritten(buf: seq<byte>, width: nat, height: nat, rect: Box): (o: Outcome<Option<Color>>)
    requires Shaped(buf, width, height)
    ensures o.Returned? ==> o.value == Mean(buf, width, height, rect)
    ensures var w := Window(rect, width, height);
      o.Trapped? <==> w.y1 < w.y0 || (w.y0 < w.y1 && w.x1 < w.x0)
  {
    var startX, startY := Max(0, rect.x0), Max(0, rect.y0);
    var endX, endY := Min(width, rect.x1), Min(height, rect.y1);
    if endY < startY || (startY < endY && endX < startX) then Trapped
    else Returned(Mean(buf, width, height, rect))
  }

  /**
   * A region that reaches past the right edge of the image: its second block
   * of the first row starts at column 110 of a 100-pixel-wide image, so the
   * clamped column range is 110..<100 and the call traps.
   */
  lemma OverhangingRegionTraps(buf: seq<byte>)
    requires Shaped(buf, 100, 100)
    ensures PixelBounds(Rect(0.9, 0.0, 0.5, 0.5), 100, 100) == Box(90, 50, 140, 100)
    ensures var bounds := PixelBounds(Rect(0.9, 0.0, 0.5, 0.5), 100, 100);
      bounds.x0 + 20 < bounds.x1 && bounds.y0 < bounds.y1
      && AverageColorAsWritten(buf, 100, 100, BlockAt(bounds, bounds.x0 + 20, bounds.y0, 20)).Trapped?
  {
    var r := Rect(0.9, 0.0, 0.5, 0.5);
    assert FlippedRect(r, 100, 100) == Rect(90.0, 50.0, 50.0, 50.0);
    assert Trunc(90.0) == 90 && Trunc(140.0) == 140 && Trunc(50.0) == 50 && Trunc(100.0) == 100;
  }

  /**
   * For a region inside the unit square, no block of its tiling traps: the
   * code as written and the corrected code agree there.
   */
  lemma InSquareRegionsNeverTrap(buf: seq<byte>, width: nat, height: nat, r: Rect, x: int, y: int, blockSize: nat)
    requires Shaped(buf, width, height) && InUnitSquare(r) && 0 < blockSize
    requires var bounds := PixelBounds(r, width, height); bounds.x0 <= x < bounds.x1 && bounds.y0 <= y < bounds.y1
    ensures var bounds := PixelBounds(r, width, height);
      AverageColorAsWritten(buf, width, height, BlockAt(bounds, x, y, blockSize))
      == Returned(Mean(buf, width, height, BlockAt(bounds, x, y, blockSize)))
  {
    PixelBoundsInImage(r, width, height);
  }

  /** The row loop of `getAverageColor`: the channel sums over columns [startX, endX) of row y. */
  method SumRow(context: array<byte>, width: nat, height: nat, y: int, startX: int, endX: int)
      returns (sumR: int, sumG: int, sumB: int, sumA: int)
    requires Shaped(context[..], width, height) && 0 <= y < height && 0 <= startX <= endX <= width
    ensures sumR == RowSum(context[..], width, height, y, startX, endX, 0)
    ensures sumG == RowSum(context[..], width, height, y, startX, endX, 1)
    ensures sumB == RowSum(context[..], width, height, y, startX, endX, 2)
    ensures sumA == RowSum(context[..], width, height, y, startX, endX, 3)
  {
    sumR, sumG, sumB, sumA := 0, 0, 0, 0;
    var x := startX;
    while x < endX
      invariant startX <= x <= endX
      invariant sumR == RowSum(context[..], width, height, y, startX, x, 0)
      invariant sumG == RowSum(context[..], width, height, y, startX, x, 1)
      invariant sumB == RowSum(context[..], width, height, y, startX, x, 2)
      invariant sumA == RowSum(context[..], width, height, y, startX, x, 3)
    {
      var pixelIndex := Idx(width, x, y, 0);
      RowSumStep(context[..], width, height, y, startX, x);
      sumR := sumR + context[pixelIndex] as int;
      sumG := sumG + context[pixelIndex + 1] as int;
      sumB := sumB + context[pixelIndex + 2] as int;
      sumA := sumA + context[pixelIndex + 3] as int;
      x := x + 1;
    }
  }

  /** Extending a row sum by pixel (x, y) adds the four bytes at that pixel's offset. */
  lemma RowSumStep(buf: seq<byte>, width: nat, height: nat, y: int, x0: int, x: int)
    requires Shaped(buf, width, height) && 0 <= x0 <= x < width && 0 <= y < height
    ensures Idx(width, x, y, 0) + 3 < |buf|
    ensures RowSum(buf, width, height, y, x0, x + 1, 0) == RowSum(buf, width, height, y, x0, x, 0) + buf[Idx(width, x, y, 0)] as int
    ensures RowSum(buf, width, height, y, x0, x + 1, 1) == RowSum(buf, width, height, y, x0, x, 1) + buf[Idx(width, x, y, 0) + 1] as int
    ensures RowSum(buf, width, height, y, x0, x + 1, 2) == RowSum(buf, width, height, y, x0, x, 2) + buf[Idx(width, x, y, 0) + 2] as int
    ensures RowSum(buf, width, height, y, x0, x + 1, 3) == RowSum(buf, width, height, y, x0, x, 3) + buf[Idx(width, x, y, 0) + 3] as int
  {
    IdxInBuffer(width, height, x, y, 3);
  }

  /** The floor means of the channel sums over a non-empty window are its mean colour. */
  lemma MeanOfSums(buf: seq<byte>, width: nat, height: nat, rect: Box, r: int, g: int, b: int, a: int, n: int)
    requires Shaped(buf, width, height)
    requires n == Area(Window(rect, width, height)) && 0 < n
    requires r == WindowSum(buf, width, height, Window(rect, width, height), 0)
    requires g == WindowSum(buf, width, height, Window(rect, width, height), 1)
    requires b == WindowSum(buf, width, height, Window(rect, width, height), 2)
    requires a == WindowSum(buf, width, height, Window(rect, width, height), 3)
    ensures 0 <= r / n < 256 && 0 <= g / n < 256 && 0 <= b / n < 256 && 0 <= a / n < 256
    ensures Mean(buf, width, height, rect) == Some(Color((r / n) as byte, (g / n) as byte, (b / n) as byte, (a / n) as byte))
  {
    var w := Window(rect, width, height);
    assert r / n == ChannelMean(buf, width, height, w, 0) as int;
    assert g / n == ChannelMean(buf, width, height, w, 1) as int;
    assert b / n == ChannelMean(buf, width, height, w, 2) as int;
    assert a / n == ChannelMean(buf, width, height, w, 3) as int;
  }

  /** Adding row y to a window ending at y adds that row's sum to its channel sums. */
  lemma WindowSumAddRow(buf: seq<byte>, width: nat, height: nat, b: Box, y: int)
    requires Shaped(buf, width, height) && InImage(b.(y1 := y), width, height) && b.y0 <= y < height
    ensures WindowSum(buf, width, height, b.(y1 := y + 1), 0) == WindowSum(buf, width, height, b.(y1 := y), 0) + RowSum(buf, width, height, y, b.x0, b.x1, 0)
    ensures WindowSum(buf, width, height, b.(y1 := y + 1), 1) == WindowSum(buf, width, height, b.(y1 := y), 1) + RowSum(buf, width, height, y, b.x0, b.x1, 1)
    ensures WindowSum(buf, width, height, b.(y1 := y + 1), 2) == WindowSum(buf, width, height, b.(y1 := y), 2) + RowSum(buf, width, height, y, b.x0, b.x1, 2)
    ensures WindowSum(buf, width, height, b.(y1 := y + 1), 3) == WindowSum(buf, width, height, b.(y1 := y), 3) + RowSum(buf, width, height, y, b.x0, b.x1, 3)
  {
    assert b.(y1 := y + 1).(y1 := y) == b.(y1 := y);
  }

  /** Filling the one-pixel box at (x, y) writes exactly that pixel's four channels. */
  lemma PaintedPixel(buf: seq<byte>, width: nat, height: nat, x: int, y: int, p: Color)
    requires Shaped(buf, width, height) && 0 <= x < width && 0 <= y < height
    ensures Idx(width, x, y, 3) < |buf|
    ensures Filled(buf, width, height, Box(x, y, x + 1, y + 1), p)
         == buf[Idx(width, x, y, 0) := p.r][Idx(width, x, y, 1) := p.g]
               [Idx(width, x, y, 2) := p.b][Idx(width, x, y, 3) := p.a]
  {
    IdxInBuffer(width, height, x, y, 3);
    var base := Idx(width, x, y, 0);
    var painted := buf[base := p.r][base + 1 := p.g][base + 2 := p.b][base + 3 := p.a];
    var f := Filled(buf, width, height, Box(x, y, x + 1, y + 1), p);
    forall i | 0 <= i < |buf|
      ensures f[i] == painted[i]
    {
      Decode(width, height, i);
      if base <= i < base + 4 {
        Encode(width, x, y, i - base);
      }
    }
  }

  /** Writes the four channels of one pixel. */
  method PaintPixel(context: array<byte>, width: nat, height: nat, x: int, y: int, color: Color)
    requires Shaped(context[..], width, height) && 0 <= x < width && 0 <= y < height
    modifies context
    ensures context[..] == Filled(old(context[..]), width, height, Box(x, y, x + 1, y + 1), color)
  {
    PaintedPixel(context[..], width, height, x, y, color);
    var pixelIndex := y * RowBytes(width) + x * BytesPerPixel;
    context[pixelIndex] := color.r;
    context[pixelIndex + 1] := color.g;
    context[pixelIndex + 2] := color.b;
    context[pixelIndex + 3] := color.a;
  }

  /** `context.fill(blockRect)`: paints the part of the block inside the image, row by row. */
  method FillBlock(context: array<byte>, width: nat, height: nat, rect: Box, color: Color)
    requires Shaped(context[..], width, height)
    modifies context
    ensures context[..] == Filled(old(context[..]), width, height, rect, color)
  {
    var startX := Max(0, rect.x0);
    var startY := Max(0, rect.y0);
    var endX := Min(width, rect.x1);
    var endY := Min(height, rect.y1);
    ghost var before := context[..];
    FilledNothing(before, width, height, Box(startX, startY, endX, startY), color);
    var y := startY;
    while y < endY
      invariant y == startY || startY < y <= endY
      invariant Shaped(context[..], width, height)
      invariant context[..] == Filled(before, width, height, Box(startX, startY, endX, y), color)
    {
      ghost var rowsDone := context[..];
      FilledNothing(rowsDone, width, height, Box(startX, y, startX, y + 1), color);
      var x := startX;
      while x < endX
        invariant x == startX || startX < x <= endX
        invariant Shaped(context[..], width, height)
        invariant context[..] == Filled(rowsDone, width, height, Box(startX, y, x, y + 1), color)
      {
        PaintPixel(context, width, height, x, y, color);
        FilledUnion(rowsDone, width, height, Box(startX, y, x, y + 1), Box(x, y, x + 1, y + 1),
                    Box(startX, y, x + 1, y + 1), color);
        x := x + 1;
      }
      FilledUnion(before, width, height, Box(startX, startY, endX, y), Box(startX, y, x, y + 1),
                  Box(startX, startY, endX, y + 1), color);
      y := y + 1;
    }
    FilledSameCover(before, width, height, Box(startX, startY, endX, y), rect, color);
  }

  /**
   * `applyMosaicToRegion`: walks the blocks of the region's pixel bounds,
   * rows of blocks bottom to top and blocks left to right, and replaces each
   * block that holds a pixel by its mean colour.
   */
  method ApplyMosaicToRegion(context: array<byte>, width: nat, height: nat, region: Region)
    requires Shaped(context[..], width, height)
    modifies context
    ensures context[..] == MosaicRegion(old(context[..]), width, height, region)
  {
    var blockSize := region.intensity.BlockSize();
    var bounds := PixelBounds(region.rect, width, height);
    var y := bounds.y0;
    while y < bounds.y1
      invariant Shaped(context[..], width, height)
      invariant MosaicRows(context[..], width, height, bounds, y, blockSize)
             == MosaicRegion(old(context[..]), width, height, region)
      decreases bounds.y1 - y
    {
      MosaicBlockRow(context, width, height, bounds, y, blockSize);
      y := y + blockSize;
    }
  }

  /** The column loop of `applyMosaicToRegion`: the blocks of one row of the tiling, left to right. */
  method MosaicBlockRow(context: array<byte>, width: nat, height: nat, bounds: Box, y: int, blockSize: nat)
    requires Shaped(context[..], width, height) && 0 < blockSize
    modifies context
    ensures context[..] == MosaicRow(old(context[..]), width, height, bounds, bounds.x0, y, blockSize)
  {
    var x := bounds.x0;
    while x < bounds.x1
      invariant Shaped(context[..], width, height)
      invariant MosaicRow(context[..], width, height, bounds, x, y, blockSize)
             == MosaicRow(old(context[..]), width, height, bounds, bounds.x0, y, blockSize)
      decreases bounds.x1 - x
    {
      var blockRect := BlockAt(bounds, x, y, blockSize);
      ghost var beforeBlock := context[..];
      var averageColor := GetAverageColor(context, width, height, blockRect);
      if averageColor.Some? {
        FillBlock(context, width, height, blockRect, averageColor.value);
      }
      assert context[..] == MosaicBlock(beforeBlock, width, height, blockRect);
      x := x + blockSize;
    }
  }

  /**
   * `applyMosaic`: draws the source into a fresh buffer, applies every active
   * region in order, and returns the buffer as a new image. The source is
   * never written.
   */
  method ApplyMosaic(image: Option<Bitmap>, regions: seq<Region>) returns (processed: Option<Bitmap>)
    requires image.Some? ==> image.value.Valid()
    ensures processed == MosaicOutput(image, regions)
  {
    if image.None? {
      return None;
    }
    var source := image.value;
    var width, height := source.width, source.height;
    if width == 0 || height == 0 {
      return None;
    }
    var context := new byte[width * height * BytesPerPixel](i requires 0 <= i < |source.bytes| => source.bytes[i]);
    assert context[..] == source.bytes;
    var k := 0;
    while k < |regions|
      invariant 0 <= k <= |regions|
      invariant Shaped(context[..], width, height)
      invariant MosaicRegions(context[..], width, height, regions[k..])
             == MosaicRegions(source.bytes, width, height, regions)
    {
      assert regions[k..][1..] == regions[k + 1..];
      if regions[k].isActive {
        ApplyMosaicToRegion(context, width, height, regions[k]);
      }
      k := k + 1;
    }
    processed := Some(Bitmap(width, height, context[..]));
  }
}

=== FILE: raster.dfy ===
/**
 * The raster buffer the pixelation engine works on: `width * height` pixels
 * of four 8-bit channels (red, green, blue, alpha, premultiplied), stored
 * row after row with `bytesPerRow = width * 4` and no padding. The model
 * addresses a row by its CoreGraphics y coordinate and uses that one
 * convention for every read and every write.
 */
module Raster {
  import opened Geometry
  import opened Wrappers

  newtype byte = b: int | 0 <= b < 256

  const BytesPerPixel: nat := 4

  /** A flat RGBA colour, one byte per channel. */
  datatype Color = Color(r: byte, g: byte, b: byte, a: byte) {

    function Channel(c: nat): byte
      requires c < BytesPerPixel
    {
      if c == 0 then r else if c == 1 then g else if c == 2 then b else a
    }
  }

  /** A decoded image as the engine receives and returns it. */
  datatype Bitmap = Bitmap(width: nat, height: nat, bytes: seq<byte>) {

    predicate Valid() {
      Shaped(bytes, width, height)
    }
  }

  predicate Shaped(buf: seq<byte>, width: nat, height: nat) {
    |buf| == width * height * BytesPerPixel
  }

  function RowBytes(width: nat): nat {
    width * BytesPerPixel
  }

  /** The offset of channel `c` of pixel (x, y): `y * bytesPerRow + x * bytesPerPixel + c`. */
  function Idx(width: nat, x: nat, y: nat, c: nat): nat {
    y * RowBytes(width) + x * BytesPerPixel + c
  }

  /** The column, row and channel an offset belongs to. */
  function ColumnOf(width: nat, i: nat): nat
    requires 0 < width
  {
    (i / BytesPerPixel) % width
  }

  function RowOf(width: nat, i: nat): nat
    requires 0 < width
  {
    (i / BytesPerPixel) / width
  }

  function ChannelOf(i: nat): nat {
    i % BytesPerPixel
  }

  lemma DivModUnique(n: int, d: int, q: int, r: int)
    requires 0 < d && 0 <= r < d && n == q * d + r
    ensures n / d == q && n % d == r
  {
    var q', r' := n / d, n % d;
    assert n == q' * d + r';
    assert (q - q') * d == r' - r by {
      assert (q - q') * d == q * d - q' * d;
    }
    if q > q' {
      MulAtLeast(q - q', d);
    } else if q < q' {
      MulAtLeast(q' - q, d);
    }
  }

  lemma MulAtLeast(k: int, d: int)
    requires 1 <= k && 0 <= d
    ensures d <= k * d
  {
    assert k * d == (k - 1) * d + d;
  }

  lemma MulMonotone(a: int, b: int, n: int)
    requires a <= b && 0 <= n
    ensures a * n <= b * n
  {
    assert b * n - a * n == (b - a) * n;
  }

  /** Euclidean division by a positive divisor brackets the dividend. */
  lemma FloorDivBrackets(s: int, n: int)
    requires 0 < n
    ensures (s / n) * n <= s < (s / n + 1) * n
  {
    assert s == (s / n) * n + s % n;
    assert (s / n + 1) * n == (s / n) * n + n;
  }

  /** A quotient is at most k when the dividend is at most k times the divisor. */
  lemma DivAtMost(s: int, n: int, k: int)
    requires 0 < n && s <= k * n
    ensures s / n <= k
  {
    FloorDivBrackets(s, n);
    if s / n > k {
      assert (k + 1) * n == k * n + n;
      MulMonotone(k + 1, s / n, n);
    }
  }

  lemma IdxLinear(width: nat, x: nat, y: nat, c: nat)
    ensures Idx(width, x, y, c) == (y * width + x) * BytesPerPixel + c
  {
    assert y * (width * 4) == (y * width) * 4;
  }

  /** Every channel of every pixel of the image lies inside the buffer. */
  lemma IdxInBuffer(width: nat, height: nat, x: nat, y: nat, c: nat)
    requires x < width && y < height && c < BytesPerPixel
    ensures Idx(width, x, y, c) < width * height * BytesPerPixel
  {
    IdxLinear(width, x, y, c);
    assert y * width + x < (y + 1) * width;
    assert (y + 1) * width <= height * width;
  }

  /** An offset names its pixel and channel back. */
  lemma Encode(width: nat, x: nat, y: nat, c: nat)
    requires x < width && c < BytesPerPixel
    ensures ColumnOf(width, Idx(width, x, y, c)) == x
    ensures RowOf(width, Idx(width, x, y, c)) == y
    ensures ChannelOf(Idx(width, x, y, c)) == c
  {
    IdxLinear(width, x, y, c);
    var i := Idx(width, x, y, c);
    DivModUnique(i, 4, y * width + x, c);
    DivModUnique(y * width + x, width, y, x);
  }

  /** Every offset of the buffer is the offset of some channel of some pixel. */
  lemma Decode(width: nat, height: nat, i: nat)
    requires i < width * height * BytesPerPixel
    ensures 0 < width
    ensures ColumnOf(width, i) < width && RowOf(width, i) < height && ChannelOf(i) < BytesPerPixel
    ensures Idx(width, ColumnOf(width, i), RowOf(width, i), ChannelOf(i)) == i
  {
    assert 0 < width;
    var k := i / 4;
    assert i == k * 4 + i % 4;
    var x, y := k % width, k / width;
    assert k == y * width + x;
    IdxLinear(width, x, y, i % 4);
  }

  lemma IdxInjective(width: nat, x: nat, y: nat, c: nat, x': nat, y': nat, c': nat)
    requires x < width && c < BytesPerPixel && x' < width && c' < BytesPerPixel
    requires Idx(width, x, y, c) == Idx(width, x', y', c')
    ensures x == x' && y == y' && c == c'
  {
    Encode(width, x, y, c);
    Encode(width, x', y', c');
  }

  /** Channel `c` of pixel (x, y). */
  function At(buf: seq<byte>, width: nat, height: nat, x: int, y: int, c: nat): byte
    requires Shaped(buf, width, height)
    requires 0 <= x < width && 0 <= y < height && c < BytesPerPixel
  {
    IdxInBuffer(width, height, x, y, c);
    buf[Idx(width, x, y, c)]
  }

  /** Two buffers of one shape that agree on every channel of every pixel are equal. */
  lemma SameEverywhere(s: seq<byte>, t: seq<byte>, width: nat, height: nat)
    requires Shaped(s, width, height) && Shaped(t, width, height)
    requires forall x, y, c | 0 <= x < width && 0 <= y < height && 0 <= c < BytesPerPixel ::
      At(s, width, height, x, y, c) == At(t, width, height, x, y, c)
    ensures s == t
  {
    forall i | 0 <= i < |s|
      ensures s[i] == t[i]
    {
      Decode(width, height, i);
      var x, y, c := ColumnOf(width, i), RowOf(width, i), ChannelOf(i);
      assert At(s, width, height, x, y, c) == At(t, width, height, x, y, c);
    }
  }

  /** The number of columns and rows of a box, zero when it is empty. */
  function Columns(b: Box): nat {
    if b.x1 <= b.x0 then 0 else b.x1 - b.x0
  }

  function Rows(b: Box): nat {
    if b.y1 <= b.y0 then 0 else b.y1 - b.y0
  }

  function Area(b: Box): nat {
    Columns(b) * Rows(b)
  }

  /** The part of a block that `getAverageColor` reads: the block clamped to the image. */
  function Window(b: Box, width: nat, height: nat): (w: Box)
    ensures 0 <= w.x0 && w.x1 <= width && 0 <= w.y0 && w.y1 <= height
    ensures forall x, y | 0 <= x < width && 0 <= y < height :: w.Contains(x, y) <==> b.Contains(x, y)
  {
    Box(Max(0, b.x0), Max(0, b.y0), Min(width, b.x1), Min(height, b.y1))
  }

  predicate InImage(w: Box, width: nat, height: nat) {
    0 <= w.x0 && w.x1 <= width && 0 <= w.y0 && w.y1 <= height
  }

  /** The sum of channel `c` over columns [x0, x1) of row y. */
  function RowSum(buf: seq<byte>, width: nat, height: nat, y: int, x0: int, x1: int, c: nat): int
    requires Shaped(buf, width, height) && 0 <= y < height && 0 <= x0 && x1 <= width && c < BytesPerPixel
    decreases x1 - x0
  {
    if x1 <= x0 then 0
    else RowSum(buf, width, height, y, x0, x1 - 1, c) + At(buf, width, height, x1 - 1, y, c) as int
  }

  /** The sum of channel `c` over a window of the image, row after row. */
  function WindowSum(buf: seq<byte>, width: nat, height: nat, w: Box, c: nat): int
    requires Shaped(buf, width, height) && InImage(w, width, height) && c < BytesPerPixel
    decreases w.y1 - w.y0
  {
    if w.y1 <= w.y0 then 0
    else WindowSum(buf, width, height, w.(y1 := w.y1 - 1), c)
         + RowSum(buf, width, height, w.y1 - 1, w.x0, w.x1, c)
  }

  lemma {:induction false} RowSumBounds(buf: seq<byte>, width: nat, height: nat, y: int, x0: int, x1: int, c: nat)
    requires Shaped(buf, width, height) && 0 <= y < height && 0 <= x0 && x1 <= width && c < BytesPerPixel
    ensures 0 <= RowSum(buf, width, height, y, x0, x1, c) <= 255 * Columns(Box(x0, y, x1, y + 1))
    decreases x1 - x0
  {
    if x0 < x1 {
      RowSumBounds(buf, width, height, y, x0, x1 - 1, c);
    }
  }

  /** A channel sum lies between 0 and 255 per pixel. */
  lemma {:induction false} WindowSumBounds(buf: seq<byte>, width: nat, height: nat, w: Box, c: nat)
    requires Shaped(buf, width, height) && InImage(w, width, height) && c < BytesPerPixel
    ensures 0 <= WindowSum(buf, width, height, w, c) <= 255 * Area(w)
    decreases w.y1 - w.y0
  {
    if w.y0 < w.y1 {
      var w' := w.(y1 := w.y1 - 1);
      WindowSumBounds(buf, width, height, w', c);
      RowSumBounds(buf, width, height, w.y1 - 1, w.x0, w.x1, c);
      assert Columns(Box(w.x0, w.y1 - 1, w.x1, w.y1)) == Columns(w);
      AreaAddRow(w', w.y1 - 1);
      assert w'.(y1 := w.y1 - 1 + 1) == w;
    }
  }

  /** Adding row y to a window ending at y adds its column count to its area. */
  lemma AreaAddRow(b: Box, y: int)
    requires b.y0 <= y
    ensures Area(b.(y1 := y + 1)) == Area(b.(y1 := y)) + Columns(b)
  {
    assert Rows(b.(y1 := y + 1)) == Rows(b.(y1 := y)) + 1;
    assert Columns(b) * (Rows(b.(y1 := y)) + 1) == Columns(b) * Rows(b.(y1 := y)) + Columns(b);
  }

  /** The floor of the mean of channel `c` over a non-empty window. */
  function ChannelMean(buf: seq<byte>, width: nat, height: nat, w: Box, c: nat): (m: byte)
    requires Shaped(buf, width, height) && InImage(w, width, height) && c < BytesPerPixel
    requires 0 < Area(w)
    ensures m as int * Area(w) <= WindowSum(buf, width, height, w, c) < (m as int + 1) * Area(w)
  {
    var n, s := Area(w), WindowSum(buf, width, height, w, c);
    WindowSumBounds(buf, width, height, w, c);
    FloorDivBrackets(s, n);
    DivAtMost(s, n, 255);
    assert 0 <= s / n by {
      if s / n < 0 {
        MulMonotone(s / n, -1, n);
      }
    }
    (s / n) as byte
  }

  /**
   * `getAverageColor`: the per-channel floor mean over the part of the block
   * inside the image, or nothing when that part holds no pixel.
   */
  function Mean(buf: seq<byte>, width: nat, height: nat, b: Box): (m: Option<Color>)
    requires Shaped(buf, width, height)
    ensures m.None? <==> Area(Window(b, width, height)) == 0
  {
    var w := Window(b, width, height);
    if Area(w) == 0 then None
    else Some(Color(ChannelMean(buf, width, height, w, 0), ChannelMean(buf, width, height, w, 1),
                    ChannelMean(buf, width, height, w, 2), ChannelMean(buf, width, height, w, 3)))
  }

  /** `context.fill`: every pixel of the box that lies in the image gets colour p. */
  function Filled(buf: seq<byte>, width: nat, height: nat, b: Box, p: Color): (f: seq<byte>)
    requires Shaped(buf, width, height)
    ensures Shaped(f, width, height)
  {
    seq(|buf|, i requires 0 <= i < |buf| =>
      if 0 < width && b.Contains(ColumnOf(width, i), RowOf(width, i)) then p.Channel(ChannelOf(i)) else buf[i])
  }

  /** What a fill leaves at each pixel. */
  lemma FilledAt(buf: seq<byte>, width: nat, height: nat, b: Box, p: Color, x: int, y: int, c: nat)
    requires Shaped(buf, width, height)
    requires 0 <= x < width && 0 <= y < height && c < BytesPerPixel
    ensures At(Filled(buf, width, height, b, p), width, height, x, y, c)
         == if b.Contains(x, y) then p.Channel(c) else At(buf, width, height, x, y, c)
  {
    Encode(width, x, y, c);
    IdxInBuffer(width, height, x, y, c);
    var i := Idx(width, x, y, c);
    assert Filled(buf, width, height, b, p)[i]
        == if b.Contains(x, y) then p.Channel(c) else buf[i];
  }

  /** A fill whose box holds no pixel of the image changes nothing. */
  lemma FilledNothing(buf: seq<byte>, width: nat, height: nat, b: Box, p: Color)
    requires Shaped(buf, width, height)
    requires forall x, y | 0 <= x < width && 0 <= y < height :: !b.Contains(x, y)
    ensures Filled(buf, width, height, b, p) == buf
  {
    forall x, y, c | 0 <= x < width && 0 <= y < height && 0 <= c < BytesPerPixel
      ensures At(Filled(buf, width, height, b, p), width, height, x, y, c) == At(buf, width, height, x, y, c)
    {
      FilledAt(buf, width, height, b, p, x, y, c);
    }
    SameEverywhere(Filled(buf, width, height, b, p), buf, width, height);
  }

  /** Filling b1 and then b2 with one colour is filling their union. */
  lemma FilledUnion(buf: seq<byte>, width: nat, height: nat, b1: Box, b2: Box, b3: Box, p: Color)
    requires Shaped(buf, width, height)
    requires forall x, y | 0 <= x < width && 0 <= y < height ::
      b3.Contains(x, y) <==> b1.Contains(x, y) || b2.Contains(x, y)
    ensures Filled(Filled(buf, width, height, b1, p), width, height, b2, p) == Filled(buf, width, height, b3, p)
  {
    var f1 := Filled(buf, width, height, b1, p);
    forall x, y, c | 0 <= x < width && 0 <= y < height && 0 <= c < BytesPerPixel
      ensures At(Filled(f1, width, height, b2, p), width, height, x, y, c)
           == At(Filled(buf, width, height, b3, p), width, height, x, y, c)
    {
      FilledAt(buf, width, height, b1, p, x, y, c);
      FilledAt(f1, width, height, b2, p, x, y, c);
      FilledAt(buf, width, height, b3, p, x, y, c);
    }
    SameEverywhere(Filled(f1, width, height, b2, p), Filled(buf, width, height, b3, p), width, height);
  }

  /** Fills of boxes that cover the same pixels of the image are equal. */
  lemma FilledSameCover(buf: seq<byte>, width: nat, height: nat, b1: Box, b2: Box, p: Color)
    requires Shaped(buf, width, height)
    requires forall x, y | 0 <= x < width && 0 <= y < height :: b1.Contains(x, y) <==> b2.Contains(x, y)
    ensures Filled(buf, width, height, b1, p) == Filled(buf, width, height, b2, p)
  {
    forall x, y, c | 0 <= x < width && 0 <= y < height && 0 <= c < BytesPerPixel
      ensures At(Filled(buf, width, height, b1, p), width, height, x, y, c)
           == At(Filled(buf, width, height, b2, p), width, height, x, y, c)
    {
      FilledAt(buf, width, height, b1, p, x, y, c);
      FilledAt(buf, width, height, b2, p, x, y, c);
    }
    SameEverywhere(Filled(buf, width, height, b1, p), Filled(buf, width, height, b2, p), width, height);
  }
}

=== FILE: regions.dfy ===
/**
 * Mosaic regions and the ordered store of them that the mosaic processor
 * keeps. A region's identity is its position in the store.
 */
module Regions {
  import opened Geometry

  /** `MosaicIntensity`: one case, whose raw value is the block edge in pixels. */
  datatype Intensity = High {

    function BlockSize(): (size: nat)
      ensures size == 20
    {
      match this
      case High => 20
    }
  }

  /** `MosaicRegion`: a normalized rectangle, its intensity and whether it is applied. */
  datatype Region = Region(rect: Rect, intensity: Intensity, isActive: bool)

  /** The hand-written `==` of `MosaicRegion` is structural equality. */
  function SameRegion(lhs: Region, rhs: Region): (same: bool)
    ensures same <==> lhs == rhs
  {
    lhs.rect == rhs.rect && lhs.intensity == rhs.intensity && lhs.isActive == rhs.isActive
  }

  /** The store after `toggleRegion(at: index)`. */
  function Toggled(regions: seq<Region>, index: nat): (t: seq<Region>)
    ensures |t| == |regions|
    ensures forall j | 0 <= j < |regions| && j != index :: t[j] == regions[j]
    ensures index < |regions| ==>
      t[index].rect == regions[index].rect && t[index].intensity == regions[index].intensity
      && t[index].isActive == !regions[index].isActive
  {
    if index < |regions| then regions[index := regions[index].(isActive := !regions[index].isActive)]
    else regions
  }

  /**
   * A list after `remove(at: index)` guarded by `index < count`, as
   * `removeRegion(at:)` does it: later elements move down one place, and an
   * index past the end changes nothing.
   */
  function Removed<T>(regions: seq<T>, index: nat): (t: seq<T>)
    ensures index < |regions| ==> |t| == |regions| - 1
    ensures index < |regions| ==>
      forall j | 0 <= j < |t| :: t[j] == regions[if j < index then j else j + 1]
    ensures |regions| <= index ==> t == regions
  {
    if index < |regions| then regions[..index] + regions[index + 1..] else regions
  }

  /** Toggling the same index twice restores the store. */
  lemma ToggleTwiceRestores(regions: seq<Region>, index: nat)
    ensures Toggled(Toggled(regions, index), index) == regions
  {
    var t := Toggled(Toggled(regions, index), index);
    assert forall j | 0 <= j < |regions| :: t[j] == regions[j];
  }

  /**
   * Removing two regions by their original indices i < j: removing j first
   * and then i is the same as removing i first and then the shifted j - 1.
   */
  lemma RemoveTwiceCommutes(regions: seq<Region>, i: nat, j: nat)
    requires i < j < |regions|
    ensures Removed(Removed(regions, j), i) == Removed(Removed(regions, i), j - 1)
  {
    var a := Removed(Removed(regions, j), i);
    var b := Removed(Removed(regions, i), j - 1);
    assert |a| == |b| == |regions| - 2;
    forall k | 0 <= k < |a|
      ensures a[k] == b[k]
    {
      if k < i {
        assert a[k] == regions[k] && b[k] == regions[k];
      } else if k < j - 1 {
        assert a[k] == regions[k + 1] && b[k] == regions[k + 1];
      } else {
        assert a[k] == regions[k + 2] && b[k] == regions[k + 2];
      }
    }
  }

  /**
   * The region state of `MosaicProcessor`: the published list of regions and
   * the intensity new regions get.
   */
  class MosaicProcessor {
    var mosaicRegions: seq<Region>
    var currentIntensity: Intensity

    constructor ()
      ensures mosaicRegions == [] && currentIntensity == High
    {
      mosaicRegions := [];
      currentIntensity := High;
    }

    /** `addMosaicRegion`: appends an active region; no merging, no deduplication. */
    method AddMosaicRegion(rect: Rect, intensity: Intensity)
      modifies this`mosaicRegions
      ensures mosaicRegions == old(mosaicRegions) + [Region(rect, intensity, true)]
    {
      mosaicRegions := mosaicRegions + [Region(rect, intensity, true)];
    }

    /** `clearAllRegions`. */
    method ClearAllRegions()
      modifies this`mosaicRegions
      ensures mosaicRegions == []
    {
      mosaicRegions := [];
    }

    /** `toggleRegion(at:)`: an index past the end changes nothing. */
    method ToggleRegion(index: nat)
      modifies this`mosaicRegions
      ensures mosaicRegions == Toggled(old(mosaicRegions), index)
    {
      if index < |mosaicRegions| {
        mosaicRegions := mosaicRegions[index := mosaicRegions[index].(isActive := !mosaicRegions[index].isActive)];
      }
    }

    /** `removeRegion(at:)`: an index past the end changes nothing. */
    method RemoveRegion(index: nat)
      modifies this`mosaicRegions
      ensures mosaicRegions == Removed(old(mosaicRegions), index)
    {
      if index < |mosaicRegions| {
        mosaicRegions := mosaicRegions[..index] + mosaicRegions[index + 1..];
      }
    }
  }
}

=== FILE: selection.dfy ===
/**
 * The manual selection overlay: a drag on a view of `viewWidth x
 * viewHeight` points becomes a rectangle normalised to the view, and the
 * drag's end hands that rectangle on only when it is large enough.
 */
module Selection {
  import opened Geometry
  import opened Wrappers

  function MinReal(a: real, b: real): real {
    if a <= b then a else b
  }

  function MaxReal(a: real, b: real): real {
    if a <= b then b else a
  }

  function Abs(a: real): real {
    if a < 0.0 then -a else a
  }

  /**
   * The rectangle spanned by the drag's start and current points, divided by
   * the view size: its corners are the two points, whichever way the drag
   * went.
   */
  function SelectionRect(start: Point, current: Point, viewWidth: real, viewHeight: real): (r: Rect)
    requires 0.0 < viewWidth && 0.0 < viewHeight
    ensures 0.0 <= r.width && 0.0 <= r.height
    ensures r.x == MinReal(start.x, current.x) / viewWidth && r.x + r.width == MaxReal(start.x, current.x) / viewWidth
    ensures r.y == MinReal(start.y, current.y) / viewHeight && r.y + r.height == MaxReal(start.y, current.y) / viewHeight
  {
    DivAdd(MinReal(start.x, current.x), Abs(current.x - start.x), viewWidth);
    DivAdd(MinReal(start.y, current.y), Abs(current.y - start.y), viewHeight);
    Rect(MinReal(start.x, current.x) / viewWidth, MinReal(start.y, current.y) / viewHeight,
         Abs(current.x - start.x) / viewWidth, Abs(current.y - start.y) / viewHeight)
  }

  /**
   * The minimum-size guard of the drag's end: more than 2% of the view on
   * each axis. A tap, or a drag along one axis only, never passes.
   */
  predicate AcceptsSelection(r: Rect): (accepted: bool)
    ensures accepted ==> 0.0 < r.width && 0.0 < r.height
  {
    r.width > 0.02 && r.height > 0.02
  }

  /** The drag's direction does not matter. */
  lemma SelectionSymmetric(start: Point, current: Point, viewWidth: real, viewHeight: real)
    requires 0.0 < viewWidth && 0.0 < viewHeight
    ensures SelectionRect(start, current, viewWidth, viewHeight) == SelectionRect(current, start, viewWidth, viewHeight)
  {
    assert Abs(current.x - start.x) == Abs(start.x - current.x);
    assert Abs(current.y - start.y) == Abs(start.y - current.y);
  }

  /** A drag that stays inside the view selects a rectangle inside the unit square. */
  lemma SelectionInUnitSquare(start: Point, current: Point, viewWidth: real, viewHeight: real)
    requires 0.0 < viewWidth && 0.0 < viewHeight
    requires 0.0 <= start.x <= viewWidth && 0.0 <= current.x <= viewWidth
    requires 0.0 <= start.y <= viewHeight && 0.0 <= current.y <= viewHeight
    ensures InUnitSquare(SelectionRect(start, current, viewWidth, viewHeight))
  {
    UnitFraction(MinReal(start.x, current.x), viewWidth);
    UnitFraction(MaxReal(start.x, current.x), viewWidth);
    UnitFraction(MinReal(start.y, current.y), viewHeight);
    UnitFraction(MaxReal(start.y, current.y), viewHeight);
  }

  /** A length between 0 and a positive size is a fraction of it between 0 and 1. */
  lemma UnitFraction(v: real, size: real)
    requires 0.0 < size && 0.0 <= v <= size
    ensures 0.0 <= v / size <= 1.0
  {
    assert v / size * size == v;
  }

  /** Division by a positive size distributes over a sum. */
  lemma DivAdd(a: real, b: real, size: real)
    requires 0.0 < size
    ensures a / size + b / size == (a + b) / size
  {
  }

  /**
   * The guard passes exactly when the drag moved more than 2% of the view's
   * width and more than 2% of its height.
   */
  lemma AcceptsSelectionIff(start: Point, current: Point, viewWidth: real, viewHeight: real)
    requires 0.0 < viewWidth && 0.0 < viewHeight
    ensures AcceptsSelection(SelectionRect(start, current, viewWidth, viewHeight))
        <==> Abs(current.x - start.x) > 0.02 * viewWidth && Abs(current.y - start.y) > 0.02 * viewHeight
  {
    DivAbove(Abs(current.x - start.x), viewWidth);
    DivAbove(Abs(current.y - start.y), viewHeight);
  }

  /** A length is more than 2% of a positive size exactly when its fraction of it is more than 0.02. */
  lemma DivAbove(a: real, size: real)
    requires 0.0 < size
    ensures a / size > 0.02 <==> a > 0.02 * size
  {
    var f := a / size;
    assert f * size == a;
    assert a - 0.02 * size == (f - 0.02) * size;
  }

  /**
   * The overlay's state: the rectangle drawn so far, whether a drag is in
   * progress, and where it started. A rectangle is shown exactly while a
   * drag is in progress.
   */
  class SelectionOverlay {
    var currentSelection: Option<Rect>
    var isSelecting: bool
    var startPoint: Point

    ghost predicate Valid()
      reads this
    {
      currentSelection.Some? <==> isSelecting
    }

    constructor ()
      ensures Valid() && currentSelection == None && !isSelecting && startPoint == Point(0.0, 0.0)
    {
      currentSelection := None;
      isSelecting := false;
      startPoint := Point(0.0, 0.0);
    }

    /**
     * `onChanged`: the first event of a drag latches its start location;
     * every event redraws the rectangle from the latched start to the
     * current location.
     */
    method OnChanged(startLocation: Point, location: Point, viewWidth: real, viewHeight: real)
      requires 0.0 < viewWidth && 0.0 < viewHeight
      modifies this
      ensures Valid() && isSelecting
      ensures startPoint == if old(isSelecting) then old(startPoint) else startLocation
      ensures currentSelection == Some(SelectionRect(startPoint, location, viewWidth, viewHeight))
    {
      if !isSelecting {
        isSelecting := true;
        startPoint := startLocation;
      }
      var currentPoint := location;
      var rect := SelectionRect(startPoint, currentPoint, viewWidth, viewHeight);
      currentSelection := Some(rect);
    }

    /**
     * `onEnded`: hands on the selection when a drag was in progress and the
     * selection passes the size guard, and always resets the overlay. From a
     * state where a rectangle is shown exactly while a drag is in progress,
     * the drag flag and the guard alone decide.
     */
    method OnEnded() returns (completed: Option<Rect>)
      modifies this
      ensures completed == if old(isSelecting) && old(currentSelection).Some? && AcceptsSelection(old(currentSelection).value)
                           then old(currentSelection) else None
      ensures completed.Some? ==> AcceptsSelection(completed.value)
      ensures old(Valid()) ==>
        (completed.Some? <==> old(isSelecting) && AcceptsSelection(old(currentSelection).value))
      ensures Valid() && currentSelection == None && !isSelecting && startPoint == old(startPoint)
    {
      completed := None;
      if currentSelection.Some? && isSelecting {
        var selection := currentSelection.value;
        if selection.width > 0.02 && selection.height > 0.02 {
          completed := Some(selection);
        }
      }
      currentSelection := None;
      isSelecting := false;
    }
  }
}

=== FILE: tiling.dfy ===
/**
 * The block grid of `applyMosaicToRegion`: the blocks at `startX + k *
 * blockSize`, `startY + m * blockSize` partition the region's pixel bounds,
 * and every pixel of the bounds ends with the floor mean of its own block,
 * taken over the image as it stood before the region was processed.
 */
module Tiling {
  import opened Geometry
  import opened Raster
  import opened Regions
  import opened Pixelation
  import opened MosaicLaws

  // ---------------------------------------------------------------------------
  // The grid

  /** The corner of the grid cell holding coordinate p, for a grid starting at lo. */
  function CellStart(lo: int, p: int, blockSize: nat): int
    requires 0 < blockSize
  {
    lo + ((p - lo) / blockSize) * blockSize
  }

  /** The block of the tiling of `bounds` that holds pixel (px, py). */
  function Tile(bounds: Box, px: int, py: int, blockSize: nat): (b: Box)
    requires 0 < blockSize
    ensures bounds.Contains(px, py) ==> b.Contains(px, py)
  {
    var b := BlockAt(bounds, CellStart(bounds.x0, px, blockSize), CellStart(bounds.y0, py, blockSize), blockSize);
    if bounds.Contains(px, py) then
      GridCell(bounds.x0, px, blockSize, (px - bounds.x0) / blockSize);
      GridCell(bounds.y0, py, blockSize, (py - bounds.y0) / blockSize);
      b
    else b
  }

  /** Coordinate p lies in the k-th cell of a grid starting at lo exactly when k is (p - lo) / blockSize. */
  lemma GridCell(lo: int, p: int, blockSize: nat, k: int)
    requires 0 < blockSize && lo <= p
    ensures 0 <= (p - lo) / blockSize
    ensures lo + k * blockSize <= p < lo + k * blockSize + blockSize <==> k == (p - lo) / blockSize
  {
    FloorDivBrackets(p - lo, blockSize);
    assert ((p - lo) / blockSize + 1) * blockSize == (p - lo) / blockSize * blockSize + blockSize;
    if (p - lo) / blockSize < 0 {
      MulMonotone((p - lo) / blockSize + 1, 0, blockSize);
    }
    if lo + k * blockSize <= p < lo + k * blockSize + blockSize {
      DivModUnique(p - lo, blockSize, k, p - lo - k * blockSize);
    }
  }

  /**
   * The blocks of the tiling partition the bounds: a pixel of the bounds
   * lies in the block at grid position (k, m) exactly when that is the
   * position of its cell, so it lies in one block and in no other.
   */
  lemma TilingPartition(bounds: Box, blockSize: nat, k: nat, m: nat, px: int, py: int)
    requires 0 < blockSize && bounds.Contains(px, py)
    ensures BlockAt(bounds, bounds.x0 + k * blockSize, bounds.y0 + m * blockSize, blockSize).Contains(px, py)
        <==> k == (px - bounds.x0) / blockSize && m == (py - bounds.y0) / blockSize
  {
    GridCell(bounds.x0, px, blockSize, k);
    GridCell(bounds.y0, py, blockSize, m);
  }

  /** No block of the tiling reaches outside the bounds. */
  lemma BlockInBounds(bounds: Box, blockSize: nat, k: nat, m: nat, px: int, py: int)
    requires 0 < blockSize
    requires BlockAt(bounds, bounds.x0 + k * blockSize, bounds.y0 + m * blockSize, blockSize).Contains(px, py)
    ensures bounds.Contains(px, py)
  {
    MulMonotone(0, k, blockSize);
    MulMonotone(0, m, blockSize);
  }

  // ---------------------------------------------------------------------------
  // What a step leaves alone

  /** Two buffers hold the same value at every image pixel of box b. */
  predicate AgreeOn(s: seq<byte>, t: seq<byte>, width: nat, height: nat, b: Box)
    requires Shaped(s, width, height) && Shaped(t, width, height)
  {
    forall x, y, c | 0 <= x < width && 0 <= y < height && 0 <= c < BytesPerPixel && b.Contains(x, y) ::
      At(s, width, height, x, y, c) == At(t, width, height, x, y, c)
  }

  lemma {:induction false} RowSumSame(s: seq<byte>, t: seq<byte>, width: nat, height: nat, y: int, x0: int, x1: int, c: nat)
    requires Shaped(s, width, height) && Shaped(t, width, height)
    requires 0 <= y < height && 0 <= x0 && x1 <= width && c < BytesPerPixel
    requires forall x | x0 <= x < x1 :: At(s, width, height, x, y, c) == At(t, width, height, x, y, c)
    ensures RowSum(s, width, height, y, x0, x1, c) == RowSum(t, width, height, y, x0, x1, c)
    decreases x1 - x0
  {
    if x0 < x1 {
      RowSumSame(s, t, width, height, y, x0, x1 - 1, c);
    }
  }

  lemma {:induction false} WindowSumSame(s: seq<byte>, t: seq<byte>, width: nat, height: nat, w: Box, c: nat)
    requires Shaped(s, width, height) && Shaped(t, width, height)
    requires InImage(w, width, height) && c < BytesPerPixel && AgreeOn(s, t, width, height, w)
    ensures WindowSum(s, width, height, w, c) == WindowSum(t, width, height, w, c)
    decreases w.y1 - w.y0
  {
    if w.y0 < w.y1 {
      var w' := w.(y1 := w.y1 - 1);
      WindowSumSame(s, t, width, height, w', c);
      RowSumSame(s, t, width, height, w.y1 - 1, w.x0, w.x1, c);
    }
  }

  /** The mean of a block depends only on the block's own pixels. */
  lemma ChannelMeanSame(s: seq<byte>, t: seq<byte>, width: nat, height: nat, b: Box, c: nat)
    requires Shaped(s, width, height) && Shaped(t, width, height)
    requires c < BytesPerPixel && 0 < Area(Window(b, width, height)) && AgreeOn(s, t, width, height, b)
    ensures ChannelMean(s, width, height, Window(b, width, height), c)
         == ChannelMean(t, width, height, Window(b, width, height), c)
  {
    WindowSumSame(s, t, width, height, Window(b, width, height), c);
  }

  /** Processing block b from two buffers that agree on b gives b's pixels the same values. */
  lemma SameBlockResult(s: seq<byte>, t: seq<byte>, width: nat, height: nat, b: Box, px: int, py: int, c: nat)
    requires Shaped(s, width, height) && Shaped(t, width, height) && AgreeOn(s, t, width, height, b)
    requires 0 <= px < width && 0 <= py < height && c < BytesPerPixel && b.Contains(px, py)
    ensures At(MosaicBlock(s, width, height, b), width, height, px, py, c)
         == At(MosaicBlock(t, width, height, b), width, height, px, py, c)
  {
    MosaicBlockAt(s, width, height, b, px, py, c);
    MosaicBlockAt(t, width, height, b, px, py, c);
    ChannelMeanSame(s, t, width, height, b, c);
  }

  /** The blocks of a row from column x on touch only the band from x to the end of the bounds, blockSize high. */
  lemma {:induction false} MosaicRowFrame(buf: seq<byte>, width: nat, height: nat, bounds: Box, x: int, y: int, blockSize: nat,
                                         px: int, py: int, c: nat)
    requires Shaped(buf, width, height) && 0 < blockSize
    requires 0 <= px < width && 0 <= py < height && c < BytesPerPixel
    requires !Box(x, y, bounds.x1, y + blockSize).Contains(px, py)
    ensures At(MosaicRow(buf, width, height, bounds, x, y, blockSize), width, height, px, py, c) == At(buf, width, height, px, py, c)
    decreases bounds.x1 - x
  {
    if x < bounds.x1 {
      var b := BlockAt(bounds, x, y, blockSize);
      MosaicBlockAt(buf, width, height, b, px, py, c);
      MosaicRowFrame(MosaicBlock(buf, width, height, b), width, height, bounds, x + blockSize, y, blockSize, px, py, c);
    }
  }

  /** The rows of the tiling from row y on leave every pixel below row y alone. */
  lemma {:induction false} MosaicRowsFrame(buf: seq<byte>, width: nat, height: nat, bounds: Box, y: int, blockSize: nat,
                                          px: int, py: int, c: nat)
    requires Shaped(buf, width, height) && 0 < blockSize
    requires 0 <= px < width && 0 <= py < height && c < BytesPerPixel && py < y
    ensures At(MosaicRows(buf, width, height, bounds, y, blockSize), width, height, px, py, c) == At(buf, width, height, px, py, c)
    decreases bounds.y1 - y
  {
    if y < bounds.y1 {
      MosaicRowFrame(buf, width, height, bounds, bounds.x0, y, blockSize, px, py, c);
      MosaicRowsFrame(MosaicRow(buf, width, height, bounds, bounds.x0, y, blockSize), width, height, bounds, y + blockSize, blockSize,
                      px, py, c);
    }
  }

  /** A block left of a target block does not change what processing the target gives its pixels. */
  lemma EarlierBlockKeepsTarget(buf: seq<byte>, width: nat, height: nat, b: Box, target: Box, px: int, py: int, c: nat)
    requires Shaped(buf, width, height) && b.x1 <= target.x0
    requires 0 <= px < width && 0 <= py < height && c < BytesPerPixel && target.Contains(px, py)
    ensures At(MosaicBlock(MosaicBlock(buf, width, height, b), width, height, target), width, height, px, py, c)
         == At(MosaicBlock(buf, width, height, target), width, height, px, py, c)
  {
    var next := MosaicBlock(buf, width, height, b);
    forall x', y', c' | 0 <= x' < width && 0 <= y' < height && 0 <= c' < BytesPerPixel && target.Contains(x', y')
      ensures At(next, width, height, x', y', c') == At(buf, width, height, x', y', c')
    {
      MosaicBlockAt(buf, width, height, b, x', y', c');
    }
    SameBlockResult(next, buf, width, height, target, px, py, c);
  }

  /** A row of blocks above a target block does not change what processing the target gives its pixels. */
  lemma EarlierRowKeepsTarget(buf: seq<byte>, width: nat, height: nat, bounds: Box, y: int, blockSize: nat,
                              target: Box, px: int, py: int, c: nat)
    requires Shaped(buf, width, height) && 0 < blockSize && y + blockSize <= target.y0
    requires 0 <= px < width && 0 <= py < height && c < BytesPerPixel && target.Contains(px, py)
    ensures At(MosaicBlock(MosaicRow(buf, width, height, bounds, bounds.x0, y, blockSize), width, height, target), width, height, px, py, c)
         == At(MosaicBlock(buf, width, height, target), width, height, px, py, c)
  {
    var next := MosaicRow(buf, width, height, bounds, bounds.x0, y, blockSize);
    forall x', y', c' | 0 <= x' < width && 0 <= y' < height && 0 <= c' < BytesPerPixel && target.Contains(x', y')
      ensures At(next, width, height, x', y', c') == At(buf, width, height, x', y', c')
    {
      MosaicRowFrame(buf, width, height, bounds, bounds.x0, y, blockSize, x', y', c');
    }
    SameBlockResult(next, buf, width, height, target, px, py, c);
  }

  // ---------------------------------------------------------------------------
  // A pixel inside the bounds

  /** Stepping by blockSize from x reaches xt: xt is a grid coordinate of a grid through x. */
  predicate OnGrid(x: int, xt: int, blockSize: nat)
    requires 0 < blockSize
    decreases xt - x
  {
    x == xt || (x < xt && OnGrid(x + blockSize, xt, blockSize))
  }

  /** The k-th cell of a grid starting at lo is reached by k steps. */
  lemma {:induction false} OnGridMultiple(lo: int, k: nat, blockSize: nat)
    requires 0 < blockSize
    ensures OnGrid(lo, lo + k * blockSize, blockSize)
    decreases k
  {
    if 0 < k {
      OnGridMultiple(lo + blockSize, k - 1, blockSize);
      MulAtLeast(k, blockSize);
      assert lo + k * blockSize == (lo + blockSize) + (k - 1) * blockSize;
    }
  }

  /**
   * Along a row, the pixel of the block at grid column xt ends as that
   * block alone, processed on the buffer the row started from, leaves it:
   * the blocks before it do not touch its pixels.
   */
  lemma {:induction false} MosaicRowAt(buf: seq<byte>, width: nat, height: nat, bounds: Box, x: int, y: int, blockSize: nat, xt: int,
                                      px: int, py: int, c: nat)
    requires Shaped(buf, width, height) && 0 < blockSize && OnGrid(x, xt, blockSize)
    requires 0 <= px < width && 0 <= py < height && c < BytesPerPixel
    requires BlockAt(bounds, xt, y, blockSize).Contains(px, py)
    ensures At(MosaicRow(buf, width, height, bounds, x, y, blockSize), width, height, px, py, c)
         == At(MosaicBlock(buf, width, height, BlockAt(bounds, xt, y, blockSize)), width, height, px, py, c)
    decreases xt - x
  {
    var target := BlockAt(bounds, xt, y, blockSize);
    var b := BlockAt(bounds, x, y, blockSize);
    var next := MosaicBlock(buf, width, height, b);
    assert MosaicRow(buf, width, height, bounds, x, y, blockSize)
        == MosaicRow(next, width, height, bounds, x + blockSize, y, blockSize);
    if x == xt {
      MosaicRowFrame(next, width, height, bounds, x + blockSize, y, blockSize, px, py, c);
    } else {
      MosaicRowAt(next, width, height, bounds, x + blockSize, y, blockSize, xt, px, py, c);
      EarlierBlockKeepsTarget(buf, width, height, b, target, px, py, c);
    }
  }

  /**
   * Down the rows, the pixel of the block at grid position (xt, yt) ends as
   * that block alone, processed on the buffer the rows started from, leaves
   * it.
   */
  lemma {:induction false} MosaicRowsAt(buf: seq<byte>, width: nat, height: nat, bounds: Box, y: int, blockSize: nat, xt: int, yt: int,
                                       px: int, py: int, c: nat)
    requires Shaped(buf, width, height) && 0 < blockSize
    requires OnGrid(bounds.x0, xt, blockSize) && OnGrid(y, yt, blockSize)
    requires 0 <= px < width && 0 <= py < height && c < BytesPerPixel
    requires BlockAt(bounds, xt, yt, blockSize).Contains(px, py)
    ensures At(MosaicRows(buf, width, height, bounds, y, blockSize), width, height, px, py, c)
         == At(MosaicBlock(buf, width, height, BlockAt(bounds, xt, yt, blockSize)), width, height, px, py, c)
    decreases yt - y
  {
    var target := BlockAt(bounds, xt, yt, blockSize);
    var next := MosaicRow(buf, width, height, bounds, bounds.x0, y, blockSize);
    assert MosaicRows(buf, width, height, bounds, y, blockSize)
        == MosaicRows(next, width, height, bounds, y + blockSize, blockSize);
    if y == yt {
      MosaicRowAt(buf, width, height, bounds, bounds.x0, y, blockSize, xt, px, py, c);
      MosaicRowsFrame(next, width, height, bounds, y + blockSize, blockSize, px, py, c);
    } else {
      MosaicRowsAt(next, width, height, bounds, y + blockSize, blockSize, xt, yt, px, py, c);
      EarlierRowKeepsTarget(buf, width, height, bounds, y, blockSize, target, px, py, c);
    }
  }

  /**
   * `applyMosaicToRegion`: every image pixel inside the region's pixel
   * bounds ends with the per-channel floor mean of its own block of the
   * grid, taken over the image as it stood before the region was processed.
   */
  lemma MosaicRegionAt(buf: seq<byte>, width: nat, height: nat, region: Region, px: int, py: int, c: nat)
    requires Shaped(buf, width, height)
    requires 0 <= px < width && 0 <= py < height && c < BytesPerPixel
    requires PixelBounds(region.rect, width, height).Contains(px, py)
    ensures var tile := Tile(PixelBounds(region.rect, width, height), px, py, region.intensity.BlockSize());
      && 0 < Area(Window(tile, width, height))
      && At(MosaicRegion(buf, width, height, region), width, height, px, py, c)
         == ChannelMean(buf, width, height, Window(tile, width, height), c)
  {
    var bounds := PixelBounds(region.rect, width, height);
    var blockSize := region.intensity.BlockSize();
    var tile := Tile(bounds, px, py, blockSize);
    GridCell(bounds.x0, px, blockSize, 0);
    GridCell(bounds.y0, py, blockSize, 0);
    OnGridMultiple(bounds.x0, (px - bounds.x0) / blockSize, blockSize);
    OnGridMultiple(bounds.y0, (py - bounds.y0) / blockSize, blockSize);
    MosaicRowsAt(buf, width, height, bounds, bounds.y0, blockSize,
                 CellStart(bounds.x0, px, blockSize), CellStart(bounds.y0, py, blockSize), px, py, c);
    MosaicBlockAt(buf, width, height, tile, px, py, c);
  }
}

=== FILE: wrappers.dfy ===
/** The optional value the model uses wherever the source returns a Swift optional. */
module Wrappers {

  datatype Option<+T> = None | Some(value: T)
}
